=== FILE: README.md ===
# R.O.S ControlHub core, modelled in Dafny

ROS ControlHub is a gateway between factory equipment and its operators.
A background worker polls a device proxy (an OPC UA server, Kepware) on a
fixed interval. It merges the values it reads into one in-memory snapshot
and pushes the snapshot's projection to every subscriber. A signalling hub
pairs a simulator that broadcasts video with browser viewers, and the
viewer page runs the WebRTC handshake. A gRPC service turns control
commands into JSON strings written to the device proxy. At start-up, the
last stored control state of each device is replayed to it.

This project models that core as immutable Dafny datatypes and pure
functions. A few methods carry the loops: the store's compare-and-swap
loop, the retry loop, the key-by-key merge, the broadcaster scan, the
candidate-pair scan and the recovery loop. The retry loop, the merge, the
scans and the recovery loop are each proved equal to a functional
definition; the compare-and-swap loop is characterised by its contract
(what it installs, and that every earlier round lost to a competitor).
Everything outside the process is a parameter: the device proxy's SDK calls, the clock, the database, the hub transport,
the browser APIs and cancellation. One module per source component:

| file | module | models |
|---|---|---|
| values.dfy | `Values` | options, results, boxed values, exceptions, 32/64-bit wrap-around, `Convert.ToString` |
| state_enums.dfy | `StateEnums` | `SystemMode`, `JobPhase` and their integer values |
| job_state_machine.dfy | `JobStateMachine` | `JobStateMachine.Next` |
| system_state.dfy | `SystemStates` | the `SystemState` record and its defaults |
| system_state_dto.dfy | `Dto` | `SystemStateDto.From` |
| state_mapper.dfy | `StateMapper` | `StateMapper.MergeExtensions` |
| state_store.dfy | `StateStore` | `InMemoryStateStore` and its CAS loop |
| device_source.dfy | `DeviceSource` | the read/write abstraction of the device proxy |
| stub_adapters.dfy | `StubAdapters` | the OPC UA and ROS stub readers |
| kepware_read.dfy | `KepwareRead` | node ids and the read-result mapping of the real adapter |
| opcua_client.dfy | `OpcUaClient` | the real adapter's connection manager |
| polling_worker.dfy | `PollingWorker` | one iteration of `StatePollingWorker.ExecuteAsync` |
| webrtc_hub.dfy | `WebRtcHub` | the signalling hub |
| viewer_client.dfy | `ViewerClient` | the viewer page's handshake and pair selection |
| control_entities.dfy | `ControlEntities` | device and current-control-state records |
| device_repository.dfy | `DeviceRepository` | device lookup and versioned state upsert |
| startup_recovery.dfy | `StartupRecovery` | the start-up replay loop |
| grpc_control.dfy | `GrpcControl` | the three control RPCs |

## Behaviour of the code worth knowing

Each point below is what the code does as written, set against what the
code itself says it is for.

- The worker sets `deviceName` and `deviceStatus` on the snapshot
  (Workers/StatePollingWorker.cs:47-53) and logs them from the DTO
  (Workers/StatePollingWorker.cs:63). Neither the `SystemState` record
  (Application/State/SystemState.cs:3-16) nor `SystemStateDto`
  (Contracts/Dto/SystemStateDto.cs:5-15) declares them. The snapshot model
  adds them as optional strings (null until first set); the pushed payload
  carries only time stamp, mode, phase, emergency stop and extensions.
- The worker indexes `merged["deviceName"]` (Workers/StatePollingWorker.cs:44),
  and the OPC UA stub the process registers (Program.cs:37) never supplies
  that key. So every iteration with the stub throws `KeyNotFoundException`
  inside the update: the snapshot never changes and nothing is pushed
  (`PollingWorker.OpcStubNeverPublishes`). Only the real adapter's bag
  carries both keys (`PollingWorker.KepwareReadPublishes`).
- The comment on the failure backoff (Workers/StatePollingWorker.cs:75)
  says it is there so that the worker does not die on failure, and the
  `OperationCanceledException` handler is marked as the normal way out.
  Yet a cancellation during the backoff delay is raised inside the `catch`
  block, so it escapes the loop instead of taking that way out. An interval
  whose doubling overflows 32 bits gives a negative backoff, which
  `Task.Delay` rejects, so that exception escapes too.
- `CheckBroadcaster` (Api/Hubs/WebRtcHub.cs:51-61) indexes the dictionary,
  which throws for a room with no broadcaster, where the method's other
  reply, `BroadcasterNotOnline`, is evidently meant for that case. Its
  replies carry the caller's own id, whereas `JoinViewers` and
  `RegisterBroadcaster` send `BroadcasterOnline` with the broadcaster's id.
  The choice between replies depends on whether the stored id is longer
  than one character.
- `Relay` without a target sends to the group named exactly the room id
  (Api/Hubs/WebRtcHub.cs:48). The hub only ever adds connections to groups
  named `room:<room>:viewers` and `room:<room>:broadcaster`, so such a
  relay reaches no one (`WebRtcHub.UntargetedRelayReachesNobody`).
- The disconnect handler's scan stops at the first room whose broadcaster
  is the caller (Api/Hubs/WebRtcHub.cs:72-80). If one connection
  registered for two rooms, the other room keeps a stale entry
  (`WebRtcHub.StaleBroadcasterAfterDisconnect`).
- The viewer page invokes a hub method `SendControlCommand`
  (wwwroot/webrtc.js:287) that `WebRtcHub` does not define. The model
  records the invocation and leaves its outcome as a parameter.

## Model

| member | source | states |
|---|---|---|
| Values.Wrap32 | Adapters/Stubs/RosStubAdapter.cs:7-12 | the result is a 32-bit value congruent to the input modulo 2^32, and equals the input when that fits |
| Values.Wrap64 | Infrastructure/Repositories/DeviceRepository.cs:45 | the result is a 64-bit value congruent to the input modulo 2^64, and equals the input when that fits |
| Values.MissingKey | Workers/StatePollingWorker.cs:44-45 | a missing dictionary key raises an exception of kind `KeyNotFound` |
| Values.ConvertToString | Workers/StatePollingWorker.cs:44-45 | a boxed string converts to itself; a boxed boolean converts to `True` exactly when it is true |
| StateEnums.ModeValue | Application/State/StateEnums.cs:3-9 | each mode's value lies in 0..3 and converts back to that mode |
| StateEnums.ModeOf | Application/State/StateEnums.cs:3-9 | an integer names a declared mode exactly when it lies in 0..3 |
| StateEnums.PhaseValue | Application/State/StateEnums.cs:11-20 | each phase's value lies in 0..6 and converts back to that phase |
| StateEnums.PhaseOf | Application/State/StateEnums.cs:11-20 | an integer names a declared phase exactly when it lies in 0..6 |
| StateEnums.SystemModeMembers | Application/State/StateEnums.cs:3-9 | exactly four modes, with distinct values 0..3, and `Idle` is value 0 |
| StateEnums.JobPhaseMembers | Application/State/StateEnums.cs:11-20 | exactly seven phases, with distinct values 0..6, and `None` is value 0 |
| JobStateMachine.Next | Application/Workflow/JobStateMachine.cs:11-24 | a declared phase advances to the next value modulo 7 (`Done` back to `None`); any undeclared value maps to `None` |
| JobStateMachine.Transitions | Application/Workflow/JobStateMachine.cs:15-21 | the transitions are None→Detect→Pick→Place→CallAGV→Dispatch→Done→None |
| JobStateMachine.IterateAdvances | Application/Workflow/JobStateMachine.cs:15-21 | `n` steps from a phase land on its value plus `n`, modulo 7 |
| JobStateMachine.SevenStepsReturn | Application/Workflow/JobStateMachine.cs:15-21 | seven steps return every phase to itself |
| JobStateMachine.NoShorterCycle | Application/Workflow/JobStateMachine.cs:15-21 | one to six steps never return a phase to itself, so the seven phases form one cycle |
| JobStateMachine.StepInjective | Application/Workflow/JobStateMachine.cs:15-21 | distinct declared phases have distinct successors |
| SystemStates.DefaultStateIsZeroed | Application/State/SystemState.cs:3-16 | a new snapshot has mode and phase at value 0 (`Idle`, `None`), no emergency stop, an empty bag, and the creation time |
| Dto.From | Contracts/Dto/SystemStateDto.cs:17-25 | the projection loses exactly the two device fields: with them restored it is the snapshot, and it holds the snapshot's bag key for key |
| Dto.FromIdentifies | Contracts/Dto/SystemStateDto.cs:17-25 | two snapshots have equal projections exactly when they differ at most in the two device fields |
| Dto.DefaultProjection | Contracts/Dto/SystemStateDto.cs:5-15 | the projection of a new snapshot is the default DTO (`Idle`, `None`, empty bag) stamped with the snapshot's time |
| StateMapper.MergeExtensions | Application/State/StateMapper.cs:10-22 | the keys are the union of both bags; an incoming key takes its incoming value; any other key keeps its current value |
| StateMapper.MergeByAssignment | Application/State/StateMapper.cs:15-22 | copying the current bag and assigning the incoming pairs one by one yields the merge |
| StateMapper.MergeEmpty | Application/State/StateMapper.cs:15-22 | merging an empty bag returns the current bag |
| StateMapper.MergeIdempotent | Application/State/StateMapper.cs:17-20 | merging the same bag twice equals merging it once |
| StateMapper.MergeSequential | Application/State/StateMapper.cs:15-22 | merging two bags one after the other equals merging their combination, where the later one wins |
| StateStore.InitialStore | Application/State/InMemoryStateStore.cs:8 | the store starts with a default snapshot |
| StateStore.GetSnapshot | Application/State/InMemoryStateStore.cs:13 | a read returns the snapshot currently installed |
| StateStore.SnapshotSeesLastWrite | Application/State/InMemoryStateStore.cs:8-26 | a read of a new store sees the default snapshot; after a swap that succeeds it sees the value swapped in; after one that fails it sees what it saw before |
| StateStore.CompareExchange | Application/State/InMemoryStateStore.cs:24-26 | returns the stamp it found; installs the new value under a new stamp exactly when that stamp is the comparand, and otherwise changes nothing |
| StateStore.Interfere | Application/State/InMemoryStateStore.cs:18-24 | a competing writer, when there is one, installs its value under a new stamp; otherwise the store is unchanged |
| StateStore.Update | Application/State/InMemoryStateStore.cs:15-30 | returns only after its own swap, holding `updater(seen)` for the snapshot seen in that last round; every earlier round lost to a competing write; an updater exception escapes before any swap |
| StateStore.UpdateUncontended | Application/State/InMemoryStateStore.cs:17-28 | without competition the update succeeds exactly when the updater does, holding its value under the next stamp |
| StateStore.UpdateAlone | Application/State/InMemoryStateStore.cs:17-28 | with no competing writer the loop runs exactly one round and agrees with the uncontended update |
| StubAdapters.OpcStubRead | Adapters/Stubs/OpcUaStubAdapter.cs:7-19 | never fails; returns exactly the keys `opc.connected`, `opc.conveyor.running`, `opc.conveyor.speed`, the first two true; never `deviceName` or `deviceStatus` |
| StubAdapters.RosStubRead | Adapters/Stubs/RosStubAdapter.cs:9-23 | increments the counter by one with 32-bit wrap-around; returns four `ros.` keys, `ros.tick` the new counter, `ros.connected` true, `ros.robot.status` `OK` |
| StubAdapters.RosCountsReads | Adapters/Stubs/RosStubAdapter.cs:12-17 | from any counter value `t`, `n` reads leave `t + n` while that fits in 32 bits |
| KepwareRead.BuildNodeId | Adapters/Real/OpcUaClientAdapter.cs:382-389 | every id starts with `ns=2;s=`; with no dot in channel or device, the id splits back into its channel, device and tag |
| KepwareRead.DottedNamesCollide | Adapters/Real/OpcUaClientAdapter.cs:387 | with a dot in a channel name, two different configurations address the same node |
| KepwareRead.ItemOr | Adapters/Real/OpcUaClientAdapter.cs:445-453 | item `i`'s value is used only if the list is non-null, has more than `i` items, status `i` is Good and the value is non-null; otherwise the default |
| KepwareRead.MapReadResults | Adapters/Real/OpcUaClientAdapter.cs:439-459 | the five keys of the bag with defaults `false`, `false`, `0.0`; `deviceName` is `Kepware_<channel>_<device>`; `deviceStatus` is `Online` exactly when connected is true and `Offline` exactly when false; a non-boolean connected item raises `InvalidCast` |
| KepwareRead.PartialFailureDefaults | Adapters/Real/OpcUaClientAdapter.cs:445-457 | Bad and Uncertain items fall back to their defaults without failing the read |
| OpcUaClient.StartReconnect | Adapters/Real/OpcUaClientAdapter.cs:323-368 | a no-op while an uncancelled source exists; otherwise a new source with a fresh number, and a loop that runs unless its token is already cancelled; a disposed source throws |
| OpcUaClient.Acquire | Adapters/Real/OpcUaClientAdapter.cs:221 | a disposed lock throws `ObjectDisposed`; otherwise a cancelled token throws `OperationCanceled` without looking at the lock; otherwise a free lock is taken and a held one queues the caller |
| OpcUaClient.LeaveQueue | Adapters/Real/OpcUaClientAdapter.cs:221 | a queued caller whose token is cancelled throws `OperationCanceled` and leaves the queue; nothing else changes |
| OpcUaClient.Critical | Adapters/Real/OpcUaClientAdapter.cs:222-312 | the holder never stays suspended; with a live session it returns without connecting; otherwise one attempt, live with no retry on success, no session on failure; on leaving, the lock passes to the first queued caller or becomes free, and a disposed lock throws `ObjectDisposed` instead |
| OpcUaClient.EnsureConnected | Adapters/Real/OpcUaClientAdapter.cs:214-313 | a live session returns at once; then disposal throws, then a cancelled token throws, then a held lock queues the caller; an uncontended call leaves the lock free with nobody queued; on success the session is live and the retry source cleared; on failure the connect error is rethrown with a retry active and no session |
| OpcUaClient.SessionDrops | Adapters/Real/OpcUaClientAdapter.cs:217 | after the connection is lost the session is not live |
| OpcUaClient.IoFailure | Adapters/Real/OpcUaClientAdapter.cs:461-474 | a failure with the session still connected is rethrown unchanged; otherwise the session is cleared and the error rethrown, a new retry source is started when none existed, an active one is kept, and a disposed one makes the restart throw `ObjectDisposed` instead |
| OpcUaClient.ReadState | Adapters/Real/OpcUaClientAdapter.cs:406-475 | the lock is free afterwards; a returned bag is the mapping of the read's results; a failure with the session live starts no retry loop |
| OpcUaClient.CheckWrite | Adapters/Real/OpcUaClientAdapter.cs:519-535 | a write fails with `InvalidOperation` exactly when the result list is non-empty and its first status is Bad |
| OpcUaClient.WriteState | Adapters/Real/OpcUaClientAdapter.cs:490-552 | the lock is free afterwards; a returned write sent the JSON to the configured control-command node; a failure with the session live starts no retry loop |
| OpcUaClient.Dispose | Adapters/Real/OpcUaClientAdapter.cs:562-584 | cancels an active source (leaving it disposed), leaves no live session and marks the adapter disposed; a source already disposed makes it throw |
| OpcUaClient.RetryLoopStep | Adapters/Real/OpcUaClientAdapter.cs:337-367 | the loop ends on a cancelled linked token; it keeps running only while its source is the active one; with a negative interval it never reaches the connect; otherwise, on an adapter in use with a free lock, it keeps running exactly when the connect fails with an error other than a cancellation |
| OpcUaClient.FreshIsValid | Adapters/Real/OpcUaClientAdapter.cs:65-112 | a new adapter satisfies the manager's invariant |
| OpcUaClient.CriticalKeepsValid | Adapters/Real/OpcUaClientAdapter.cs:222-312 | the critical section keeps the manager's invariant |
| OpcUaClient.EnsureConnectedKeepsValid | Adapters/Real/OpcUaClientAdapter.cs:214-313 | a connect keeps the invariant, and suspends only when the lock is held |
| OpcUaClient.ApplyKeepsValid | Adapters/Real/OpcUaClientAdapter.cs:214-584 | every operation, lock entry, critical section, cancelled waiter, session loss and retry iteration keeps the invariant (nobody queued at a free lock, retry sources numbered below the next number, a live session on an undisposed adapter has no retry, a cancelled source only after disposal) |
| OpcUaClient.RunKeepsValid | Adapters/Real/OpcUaClientAdapter.cs:214-584 | every state reachable by any sequence of events is valid |
| OpcUaClient.ReadFailureHandling | Adapters/Real/OpcUaClientAdapter.cs:467-473 | a read failure is always rethrown; with the session still connected nothing changes; otherwise the session is cleared and exactly one retry loop starts |
| OpcUaClient.WriteRejectedNotRetried | Adapters/Real/OpcUaClientAdapter.cs:522-529 | a Bad first write status raises `InvalidOperation` and, with the session connected, changes nothing |
| OpcUaClient.WriteWithoutBadStatusSucceeds | Adapters/Real/OpcUaClientAdapter.cs:519-535 | null and empty result lists, and any first status other than Bad, count as success |
| OpcUaClient.WriteIgnoresDeviceId | Adapters/Real/OpcUaClientAdapter.cs:490-518 | the device id a caller passes has no effect on the write |
| OpcUaClient.DisposeTwice | Adapters/Real/OpcUaClientAdapter.cs:562-566 | a second `Dispose` throws if a retry source existed, and is harmless otherwise |
| OpcUaClient.NoConnectAfterDispose | Adapters/Real/OpcUaClientAdapter.cs:214-226 | after disposal every connect raises `ObjectDisposed` and changes nothing |
| OpcUaClient.EnterQueues | Adapters/Real/OpcUaClientAdapter.cs:214-221 | while disconnected, the first of `n + 1` callers takes the lock and the other `n` queue behind it |
| OpcUaClient.QueuedCallersSkipConnect | Adapters/Real/OpcUaClientAdapter.cs:224-226 | with the session live, every queued caller passes the double check without connecting, and the lock ends free with nobody queued |
| OpcUaClient.OneAttemptPerRound | Adapters/Real/OpcUaClientAdapter.cs:214-313 | `n + 1` callers that miss the fast path together make exactly one connection attempt when it succeeds; all of them return and the lock ends free |
| OpcUaClient.FailedHolderLetsNextTry | Adapters/Real/OpcUaClientAdapter.cs:222-312 | when the holder's attempt fails, the lock passes to the next queued caller, which makes a second attempt |
| OpcUaClient.CancelledWaiterNeverConnects | Adapters/Real/OpcUaClientAdapter.cs:221-312 | a queued caller cancelled while it waits never gets the lock: after the holder's failed attempt the lock is free, and only one attempt was made |
| OpcUaClient.CancelledCallerDoesNotQueue | Adapters/Real/OpcUaClientAdapter.cs:221 | a caller with a cancelled token throws `OperationCanceled` even while the lock is held, and nothing changes |
| OpcUaClient.RetryStuckAfterOuterCancel | Adapters/Real/OpcUaClientAdapter.cs:323-345 | when the outer token ends the loop, its source stays active, so no later failure starts a new loop |
| OpcUaClient.RunRetryLoop | Adapters/Real/OpcUaClientAdapter.cs:340-366 | equals `RetryRun`, the iteration step folded over the schedule until the loop stops; the loop keeps running only through failures other than cancellation, and stops at the first success or cancellation; when it stops after a successful connect, the session is live with no retry pending; a negative interval or a disposed adapter keeps it running with nothing changed; it keeps the invariant |
| OpcUaClient.NegativeIntervalNeverConnects | Adapters/Real/OpcUaClientAdapter.cs:340-345 | with a reconnect interval below zero, an iteration never reaches the connect and the loop keeps running |
| OpcUaClient.DisposedRetrySpins | Adapters/Real/OpcUaClientAdapter.cs:340-365 | on a disposed adapter, each iteration throws at the lock, the failure is swallowed and the loop keeps running |
| PollingWorker.Backoff | Workers/StatePollingWorker.cs:76 | the backoff never exceeds 2000 ms; without overflow it is at most twice the interval, and for a non-negative interval it is exactly twice the interval or 2000 |
| PollingWorker.DefaultBackoff | Workers/StatePollingWorker.cs:24-76 | the default interval is 500 ms, and its backoff is 1000 ms |
| PollingWorker.OverflowingBackoff | Workers/StatePollingWorker.cs:76 | an interval of 2^30 ms doubles past the 32-bit range into a negative backoff |
| PollingWorker.Publish | Workers/StatePollingWorker.cs:37-54 | a successful update installs a new snapshot under the next stamp |
| PollingWorker.PublishEffect | Workers/StatePollingWorker.cs:37-54 | the update succeeds exactly when the merged bag has both device keys; it then stores the merge, the string forms of the two device values and the new time, carrying mode, phase and emergency stop; otherwise it raises the missing key's `KeyNotFound` |
| PollingWorker.Recover | Workers/StatePollingWorker.cs:67-77 | a cancellation leaves the loop; any other failure keeps the store, backs off and continues, unless the backoff delay is itself cancelled, which escapes |
| PollingWorker.TickStep | Workers/StatePollingWorker.cs:30-78 | a cancelled token stops the loop with nothing done; at most one push per iteration, and a push carries the projection of the newly installed snapshot; the store changes only by the update of a successful read |
| PollingWorker.AfterPublish | Workers/StatePollingWorker.cs:56-65 | after the update, one `SystemStateUpdated` push of the new snapshot's projection to group `default`, then the normal interval |
| PollingWorker.SuccessfulTick | Workers/StatePollingWorker.cs:35-65 | with both device keys present: the merge is stored with the device strings, time and carried fields, one push is sent, and the loop sleeps the normal interval |
| PollingWorker.MissingDeviceKeyTick | Workers/StatePollingWorker.cs:44-76 | with a device key missing the store is unchanged, nothing is pushed, and the loop backs off and continues |
| PollingWorker.FailedReadContinues | Workers/StatePollingWorker.cs:35-76 | a failed read does not end the loop (backoff, then the next iteration); a cancelled read ends it quietly |
| PollingWorker.CancelDuringBackoffEscapes | Workers/StatePollingWorker.cs:72-76 | a cancellation during the backoff delay escapes the loop |
| PollingWorker.OpcStubNeverPublishes | Workers/StatePollingWorker.cs:44 | with the OPC stub as reader, any number of iterations leave the store unchanged and push nothing |
| PollingWorker.WiredStubFailsFromStart | Program.cs:37 | in the process as wired, starting from the initial store, the snapshot never changes and nothing is ever pushed |
| PollingWorker.KepwareReadPublishes | Adapters/Real/OpcUaClientAdapter.cs:456-457 | a bag from the real adapter always lets the iteration publish and sleep the normal interval |
| WebRtcHub.JoinViewers | Api/Hubs/WebRtcHub.cs:15-28 | records the caller's room, overwriting an earlier one; adds it to `room:<room>:viewers` without leaving other groups; if the room has broadcaster B, sends `BroadcasterOnline(B)` to the caller then `ViewerJoined(caller)` to B; otherwise sends nothing |
| WebRtcHub.RegisterBroadcaster | Api/Hubs/WebRtcHub.cs:31-37 | unconditionally makes the caller the room's broadcaster, adds it to `room:<room>:broadcaster`, and sends `BroadcasterOnline(caller)` to exactly the current members of the room's viewer group |
| WebRtcHub.Relay | Api/Hubs/WebRtcHub.cs:40-49 | sends `Signal(type, payload, caller)` to exactly the target when given; otherwise to the members of the group named exactly `roomId`, sender included |
| WebRtcHub.CheckBroadcaster | Api/Hubs/WebRtcHub.cs:51-61 | raises `KeyNotFound` exactly when the room has no broadcaster; otherwise replies to the caller with the caller's id, `BroadcasterOnline` exactly when the stored id is longer than one character |
| WebRtcHub.FirstOwned | Api/Hubs/WebRtcHub.cs:72-80 | finds the first room in enumeration order whose broadcaster is the caller, or reports that none is |
| WebRtcHub.ScanBroadcasters | Api/Hubs/WebRtcHub.cs:72-80 | the `foreach … break` scan finds that same first room |
| WebRtcHub.OnDisconnected | Api/Hubs/WebRtcHub.cs:69-93 | removes at most one broadcaster entry, the first owned one; removes the caller's viewer entry and memberships; sends `ViewerLeft(caller)` to the room's remaining broadcaster, if any, and nothing else |
| WebRtcHub.JoinKeepsValid | Api/Hubs/WebRtcHub.cs:17-18 | joining keeps every viewer entry backed by membership of its room's viewer group, and every group named `room:…` |
| WebRtcHub.RegisterKeepsValid | Api/Hubs/WebRtcHub.cs:33-34 | registering keeps the hub's invariant |
| WebRtcHub.DisconnectKeepsValid | Api/Hubs/WebRtcHub.cs:69-93 | disconnecting keeps the hub's invariant |
| WebRtcHub.UntargetedRelayReachesNobody | Api/Hubs/WebRtcHub.cs:48 | in a valid hub, a relay without target to a room id not starting with `room:` reaches no connection |
| WebRtcHub.JoinTwiceKeepsBothGroups | Api/Hubs/WebRtcHub.cs:17-18 | a viewer joining a second room stays in the first room's viewer group |
| WebRtcHub.LateViewerIsIntroduced | Api/Hubs/WebRtcHub.cs:21-36 | a viewer joining after the broadcaster registered learns its id, and the broadcaster learns the viewer's |
| WebRtcHub.StaleBroadcasterAfterDisconnect | Api/Hubs/WebRtcHub.cs:72-80 | a connection registered for two rooms keeps one of them after disconnecting |
| WebRtcHub.DisconnectIdempotent | Api/Hubs/WebRtcHub.cs:69-93 | when the caller was broadcaster of at most one room, a second disconnect changes nothing and sends nothing |
| ViewerClient.NegotiateNow | wwwroot/webrtc.js:84-119 | a no-op without a truthy broadcaster id or while negotiating; otherwise it marks negotiating and replaces the pc; on completion it has sent the offer, then the buffered local candidates in order, and emptied the buffer |
| ViewerClient.OnBroadcasterOnline | wwwroot/webrtc.js:124-148 | ignores the page's own id and, once a broadcaster id is set, any other id; otherwise adopts the id |
| ViewerClient.OnLocalIce | wwwroot/webrtc.js:66-76 | ignores end-of-candidates; buffers a candidate while no broadcaster id is known, and relays it to the broadcaster otherwise |
| ViewerClient.OnSignal | wwwroot/webrtc.js:150-181 | without a pc keeps only ICE, in a buffer; an answer sets the remote description, applies the buffered ICE in order, empties the buffer and ends negotiating; ICE is buffered until a remote description exists; other kinds are dropped; nothing is sent |
| ViewerClient.SendControl | wwwroot/webrtc.js:272-298 | sends nothing when not connected or with no truthy broadcaster id; otherwise invokes the command once, and reports sent exactly when the invocation resolves |
| ViewerClient.InitialIsValid | wwwroot/webrtc.js:29-37 | the page starts with the handshake invariant |
| ViewerClient.BroadcasterIdSticks | wwwroot/webrtc.js:134-139 | once the broadcaster id is truthy no handler changes it |
| ViewerClient.NegotiateKeepsValid | wwwroot/webrtc.js:84-119 | a negotiation relays only to the broadcaster id the page holds |
| ViewerClient.ApplyKeepsValid | wwwroot/webrtc.js:66-181 | every handler keeps the invariants: all relays go to the held broadcaster id, buffered remote ICE exists only while no remote description is set, a pc exists only with a truthy broadcaster id, and the local candidate buffer is empty |
| ViewerClient.RunKeepsValid | wwwroot/webrtc.js:66-181 | the invariants hold after any sequence of events, and a truthy broadcaster id survives all of them |
| ViewerClient.LocalIceRelayedAtOnce | wwwroot/webrtc.js:66-76 | in every reachable state the local candidate buffer is empty, and a candidate gathered by an existing pc is relayed to the broadcaster at once |
| ViewerClient.FailedFlushDropsRest | wwwroot/webrtc.js:109-116 | when the `k`-th flushed relay rejects, the candidates after it are neither sent nor kept |
| ViewerClient.EarlyRemoteIceApplied | wwwroot/webrtc.js:159-177 | remote ICE arriving before the answer is applied, in arrival order, when the answer arrives |
| ViewerClient.FindSelectedPair | wwwroot/webrtc.js:203-228 | the two stats passes pick the pair the last transport names, if the report holds it, and otherwise the last succeeded pair that is selected or nominated |
| ViewerClient.NamedPairWins | wwwroot/webrtc.js:211-219 | a pair named by the transport and present in the report is chosen, whatever the other pairs' flags |
| ControlEntities.NewControlState | Application/Entities/ControlStateCurrentEntity.cs:9-29 | a new record has state JSON `{}`, actor type `system`, null command and actor ids, and its creation time |
| ControlEntities.OneRecordPerDevice | Application/Entities/ControlStateCurrentEntity.cs:9-11 | in a table keyed by `DevicePk`, two records belong to the same device exactly when they sit under the same key |
| DeviceRepository.GetDevice | Infrastructure/Repositories/DeviceRepository.cs:22-26 | returns a row with the requested id, or null exactly when no row has it |
| DeviceRepository.GetDeviceIsFirst | Infrastructure/Repositories/DeviceRepository.cs:24-25 | the returned row is the first one with the requested id |
| DeviceRepository.UpdateState | Infrastructure/Repositories/DeviceRepository.cs:28-49 | a missing record is created at version 1; an existing record's version goes up by exactly 1 below `long.MaxValue`; the JSON and time stamp are set; other fields and other records are unchanged; in a table keyed by pk, the device's record is its only one |
| DeviceRepository.VersionCountsUpdates | Infrastructure/Repositories/DeviceRepository.cs:33-45 | from no record, `n` updates give version `n` |
| DeviceRepository.VersionWrapsAtMax | Infrastructure/Repositories/DeviceRepository.cs:45 | an update at `long.MaxValue` wraps the version to `long.MinValue` |
| DeviceRepository.UpdatesOfDistinctDevicesCommute | Infrastructure/Repositories/DeviceRepository.cs:33-48 | updates of two different devices give the same table in either order |
| StartupRecovery.StepOf | Workers/StartupRecoveryService.cs:43-68 | one state yields a write of `(DeviceId, StateJson)` exactly when it is not skipped, the lookup does not throw and the device exists; a failure is logged exactly when the lookup throws, or the write throws for a found device |
| StartupRecovery.StartAsync | Workers/StartupRecoveryService.cs:23-72 | a failed listing escapes; an empty list produces no writes; otherwise every state is replayed |
| StartupRecovery.RecoverAll | Workers/StartupRecoveryService.cs:43-68 | the loop produces the replay of the list, at most one write per state |
| StartupRecovery.ReplaySplits | Workers/StartupRecoveryService.cs:50-67 | replaying a list is replaying its two halves one after the other, so a failure never affects later states |
| StartupRecovery.WritesComeFromStates | Workers/StartupRecoveryService.cs:45-61 | every write carries a non-skipped state of an existing device, to that device's id |
| StartupRecovery.DefaultRecordsNotReplayed | Workers/StartupRecoveryService.cs:45-48 | a list of records holding `{}` produces no write and no failure |
| StartupRecovery.NewRecordIsSkipped | Application/Entities/ControlStateCurrentEntity.cs:17 | a record's default state JSON is one that recovery skips |
| GrpcControl.Reply | Services/GrpcControlService.cs:30-35 | a reply succeeds exactly when the write did, with the given message, or else carries the exception's message |
| GrpcControl.SetDeviceState | Services/GrpcControlService.cs:18-37 | writes the status JSON to the request's device; succeeds with `Command executed` exactly when the write does, and otherwise reports the exception's message |
| GrpcControl.MoveAgv | Services/GrpcControlService.cs:47-71 | writes a coordinate target exactly when the target type is `coordinate`, a point target otherwise; `AGV moving` on success, the exception's message on failure |
| GrpcControl.SetAllDevicesState | Services/GrpcControlService.cs:39-45 | writes nothing and reports success, `Global command executed`, for zero devices |
| GrpcControl.StatusRoundTrip | Services/GrpcControlService.cs:26 | a command without a double quote is read back from the status JSON unchanged |
| GrpcControl.QuotedCommandIsCut | Services/GrpcControlService.cs:26 | with no escaping, a quote inside the command ends the status early, so a reader sees another status |
| GrpcControl.MoveAgvTargetReadBack | Services/GrpcControlService.cs:53-61 | the written JSON has an object target exactly when the target type is `coordinate`; a quote-free point name is read back from a point target unchanged |
| GrpcControl.StatusJsonInjective | Services/GrpcControlService.cs:26 | for quote-free commands, equal status JSON means equal command and payload |

## Left out

- The OPC UA SDK: certificates, security policy, application
  configuration and session creation parameters. Connect, read, write and
  close are outcomes passed in as parameters. The configured tag names and
  defaults are kept (`KepwareRead.DefaultConfig`).
- Real concurrency and time. Each operation is one atomic step, except
  `EnsureConnectedAsync`, which is two: reaching the lock (taking it or
  queueing) and the critical section of the holder (ending by handing the
  lock on). Competing writers of the store
  are a schedule of writes, one per round. `Task.Delay` waits,
  `Task.Run` scheduling and timeouts are not modelled; clocks are
  parameters.
- Floating-point values (conveyor speed, pose, AGV coordinates) are kept
  as their text.
- Logging, DOM updates (`updateStatus`), media playback, the periodic
  stats timer, the stats logging fields, and hub reconnect callbacks.
- SignalR delivery beyond group membership as a set. When a connection
  closes, the framework drops it from every group, and the model includes
  that. Messages sent to a connection id are recorded as addressed,
  whether or not the connection exists.
- The viewer page runs its async handlers interleaved at every `await`.
  The model runs each handler to completion.
- ViewerClient.OnSignal: `setRemoteDescription` and `addIceCandidate`
  are taken to succeed. A rejection there would leave the buffer and
  `negotiating` unchanged midway, and the model does not show it.
- ViewerClient.OnBroadcasterOnline: its contract says only which ids are
  ignored or adopted; the negotiation that follows is stated by
  `ViewerClient.NegotiateNow`.
- EF Core: `SaveChangesAsync` failures and transactions are not modelled,
  and `FirstOrDefaultAsync` searches rows in the order given. A null
  `StateJson` read from the database cannot occur in the model, because
  the record's property is a non-nullable string.
- `StartupRecoveryService.StopAsync` does nothing and is not modelled.
- Dto.From: the fresh-copy requirement (neither input mutated) holds by
  construction, since Dafny maps are values. The same goes for
  `MergeExtensions`.
- StateStore.Update: reference identity is modelled as a version stamp
  that changes on every install. The ABA case cannot arise: an install of
  an identical value by a competitor still counts as a change.
- PollingWorker.TickStep: `DateTimeOffset.UtcNow` inside the updater is
  one time per iteration, and a push's delivery to subscribers is not
  modelled beyond its address and payload.
- The ROS stub is not wired into the worker (its read is commented out in
  the source). It is modelled on its own.
- OpcUaClient.RetryLoopStep: an iteration that queues at the lock is
  modelled by its queue entry only; the later critical section, or the
  departure from the queue when its token is cancelled, is a separate
  event that is not tied back to that loop. Reads and writes that queue
  are modelled up to their connect step in the same way.
- OpcUaClient.Dispose: a caller inside the critical section while
  `Dispose` runs can still make the session live or start a retry source
  afterwards; the model keeps these states and its invariant allows them.

=== FILE: control_entities.dfy ===
/** The stored records of the persistence layer that the modelled code
    touches: a device (only its key and its external id) and the one
    current control state per device. */
module ControlEntities {
  import opened Values
  import opened SystemStates

  /** A device row, reduced to its primary key and its external id. */
  datatype Device = Device(devicePk: int, deviceId: string)

  /** `ControlStateCurrentEntity`. `DevicePk` is both its key and the
      device it belongs to; a `Guid` is kept as its text. */
  datatype ControlStateCurrent = ControlStateCurrent(
    devicePk: int,
    version: int,
    stateJson: string,
    lastCommandId: Option<string>,
    lastActorType: string,
    lastActorId: Option<string>,
    updatedAt: Timestamp)

  /** The state JSON of a record nobody has written to. */
  const EmptyStateJson: string := "{}"

  /** A record as the object initialiser leaves it: the given key and
      version, every other field at its declared default, and the creation
      time as `UpdatedAt`. */
  function NewControlState(devicePk: int, version: int, now: Timestamp): (r: ControlStateCurrent)
    ensures r.devicePk == devicePk && r.version == version
    ensures r.stateJson == EmptyStateJson
    ensures r.lastCommandId.None? && r.lastActorId.None?
    ensures r.lastActorType == "system"
    ensures r.updatedAt == now
  {
    ControlStateCurrent(devicePk, version, EmptyStateJson, Option.None, "system", Option.None, now)
  }

  /** The `control_state_current` table, keyed by `DevicePk`: each record
      sits under its own key, so there is at most one per device. */
  type StateTable = map<int, ControlStateCurrent>

  predicate KeyedByPk(t: StateTable) {
    forall pk :: pk in t ==> t[pk].devicePk == pk
  }

  /** In a table keyed by pk, each device has at most one record: two
      records belong to the same device exactly when they sit under the
      same key. */
  lemma {:induction false} OneRecordPerDevice(t: StateTable, pk1: int, pk2: int)
    requires KeyedByPk(t)
    requires pk1 in t && pk2 in t
    ensures t[pk1].devicePk == t[pk2].devicePk <==> pk1 == pk2
  {
  }
}

=== FILE: device_repository.dfy ===
/** `DeviceRepository`: lookup of a device by its external id and the
    versioned upsert of a device's current control state. The database is
    a list of device rows (in the order the query returns them) and a map
    of state records; the clock is a parameter. */
module DeviceRepository {
  import opened Values
  import opened SystemStates
  import opened ControlEntities

  /** `GetDeviceAsync`: the first row whose `DeviceId` equals the argument. */
  function GetDevice(devices: seq<Device>, deviceId: string): (r: Option<Device>)
    ensures r.Some? ==> r.value.deviceId == deviceId
    ensures r.Some? ==> r.value in devices
    ensures r.None? <==> forall i :: 0 <= i < |devices| ==> devices[i].deviceId != deviceId
  {
    if devices == [] then Option.None
    else if devices[0].deviceId == deviceId then Some(devices[0])
    else GetDevice(devices[1..], deviceId)
  }

  /** The lookup returns the row at the first index whose id matches. */
  lemma {:induction false} GetDeviceIsFirst(devices: seq<Device>, deviceId: string, i: nat)
    requires i < |devices| && devices[i].deviceId == deviceId
    requires forall j :: 0 <= j < i ==> devices[j].deviceId != deviceId
    ensures GetDevice(devices, deviceId) == Some(devices[i])
    decreases i
  {
    if i > 0 {
      GetDeviceIsFirst(devices[1..], deviceId, i - 1);
    }
  }

  /** `UpdateStateAsync`: find the record by key, creating one at version 0
      when there is none; then set its state JSON, increment its version
      (a 64-bit `long`, so `long.MaxValue` wraps) and stamp it. Every other
      record is untouched, and the other fields of an existing record keep
      their values. */
  function UpdateState(t: StateTable, devicePk: int, newStateJson: string, now: Timestamp): (r: StateTable)
    ensures r.Keys == t.Keys + {devicePk}
    ensures forall pk :: pk in t && pk != devicePk ==> r[pk] == t[pk]
    ensures r[devicePk].stateJson == newStateJson && r[devicePk].updatedAt == now
    ensures devicePk !in t ==>
      && r[devicePk].version == 1 && r[devicePk].devicePk == devicePk
      && r[devicePk].lastActorType == "system" && r[devicePk].lastCommandId.None? && r[devicePk].lastActorId.None?
    ensures devicePk in t && IsInt64(t[devicePk].version) && t[devicePk].version < Int64Max ==>
      r[devicePk].version == t[devicePk].version + 1
    ensures devicePk in t ==>
      && r[devicePk].devicePk == t[devicePk].devicePk
      && r[devicePk].lastCommandId == t[devicePk].lastCommandId
      && r[devicePk].lastActorType == t[devicePk].lastActorType
      && r[devicePk].lastActorId == t[devicePk].lastActorId
    ensures KeyedByPk(t) ==> KeyedByPk(r)
    ensures KeyedByPk(t) ==> forall pk :: pk in r && r[pk].devicePk == devicePk ==> pk == devicePk
  {
    var state := if devicePk in t then t[devicePk] else NewControlState(devicePk, 0, now);
    t[devicePk := state.(stateJson := newStateJson, version := Wrap64(state.version + 1), updatedAt := now)]
  }

  /** `n` updates of one device with the same JSON. */
  function UpdateTimes(t: StateTable, devicePk: int, json: string, now: Timestamp, n: nat): StateTable
    decreases n
  {
    if n == 0 then t else UpdateState(UpdateTimes(t, devicePk, json, now, n - 1), devicePk, json, now)
  }

  /** Starting from no record, the version counts the updates. */
  lemma {:induction false} VersionCountsUpdates(t: StateTable, devicePk: int, json: string, now: Timestamp, n: nat)
    requires devicePk !in t && 0 < n <= Int64Max
    ensures var r := UpdateTimes(t, devicePk, json, now, n);
      devicePk in r && r[devicePk].version == n
    decreases n
  {
    if n > 1 {
      VersionCountsUpdates(t, devicePk, json, now, n - 1);
    }
  }

  /** At `long.MaxValue` the next update wraps the version to `long.MinValue`. */
  lemma {:induction false} VersionWrapsAtMax(t: StateTable, devicePk: int, json: string, now: Timestamp)
    requires devicePk in t && t[devicePk].version == Int64Max
    ensures UpdateState(t, devicePk, json, now)[devicePk].version == Int64Min
  {
  }

  /** Updating one device does not disturb the record of another, in either order. */
  lemma {:induction false} UpdatesOfDistinctDevicesCommute(t: StateTable, pk1: int, j1: string, pk2: int, j2: string, now: Timestamp)
    requires pk1 != pk2
    ensures UpdateState(UpdateState(t, pk1, j1, now), pk2, j2, now) == UpdateState(UpdateState(t, pk2, j2, now), pk1, j1, now)
  {
    var a := UpdateState(UpdateState(t, pk1, j1, now), pk2, j2, now);
    var b := UpdateState(UpdateState(t, pk2, j2, now), pk1, j1, now);
    assert a.Keys == b.Keys;
    forall k | k in a.Keys
      ensures a[k] == b[k]
    {
    }
  }
}

=== FILE: device_source.dfy ===
/** The device-proxy abstraction the worker, the gRPC service and the
    startup recovery consume. The interface in
    Adapters/Abstractions/IOpcUaAdapter.cs declares only the read, but its
    callers also write, so the abstraction here carries both operations:
    a read yields an extension bag or an exception, a write succeeds or
    raises. A cancelled read raises `OperationCanceled`. */
module DeviceSource {
  import opened Values

  type Bag = map<string, Value>

  datatype ReadOutcome = ReadOk(ext: Bag) | ReadFailed(error: Exn)

  datatype WriteOutcome = WriteOk | WriteFailed(error: Exn)

  /** One `WriteStateAsync(deviceId, stateJson)` call as issued by a caller. */
  datatype WriteCall = WriteCall(deviceId: string, stateJson: string)
}

=== FILE: grpc_control.dfy ===
/** `GrpcControlService`: the three control RPCs. Each builds a state JSON
    string by interpolation (no escaping), hands it to the device proxy's
    write, and maps the write's outcome to a reply; none of them throws. The
    write's outcome is a parameter. Floating-point coordinates are kept as
    the text C# formats them to. */
module GrpcControl {
  import opened Values
  import opened DeviceSource

  datatype DeviceCommand = DeviceCommand(deviceId: string, command: string, payloadJson: string)

  datatype AgvMoveCommand = AgvMoveCommand(deviceId: string, targetType: string, x: string, y: string, pointName: string)

  datatype DeviceResult = DeviceResult(success: bool, message: string)

  datatype GlobalResult = GlobalResult(success: bool, message: string, affectedCount: int)

  /** `{"status": "<command>", "payload": <payload>}`, verbatim. */
  function StatusJson(command: string, payloadJson: string): string {
    "{\"status\": \"" + command + "\", \"payload\": " + payloadJson + "}"
  }

  /** `{"target": {"x": <x>, "y": <y>}}`. */
  function CoordinateJson(x: string, y: string): string {
    "{\"target\": {\"x\": " + x + ", \"y\": " + y + "}}"
  }

  /** `{"target": "<pointName>"}`. */
  function PointJson(pointName: string): string {
    "{\"target\": \"" + pointName + "\"}"
  }

  /** A reply built from a write's outcome: success with `ok` as message,
      or failure carrying the exception's message. */
  function Reply(outcome: WriteOutcome, ok: string): (r: DeviceResult)
    ensures r.success <==> outcome.WriteOk?
    ensures outcome.WriteOk? ==> r.message == ok
    ensures outcome.WriteFailed? ==> r.message == outcome.error.message
  {
    match outcome
    case WriteOk => DeviceResult(true, ok)
    case WriteFailed(e) => DeviceResult(false, e.message)
  }

  /** `SetDeviceState`: one write of the status JSON to the request's device. */
  function SetDeviceState(req: DeviceCommand, outcome: WriteOutcome): (r: (WriteCall, DeviceResult))
    ensures r.0.deviceId == req.deviceId
    ensures r.0.stateJson == StatusJson(req.command, req.payloadJson)
    ensures r.1.success <==> outcome.WriteOk?
    ensures r.1.success ==> r.1.message == "Command executed"
    ensures !r.1.success ==> r.1.message == outcome.error.message
  {
    (WriteCall(req.deviceId, StatusJson(req.command, req.payloadJson)), Reply(outcome, "Command executed"))
  }

  /** `MoveAgv`: a coordinate target when the target type is exactly
      `coordinate`, a named point otherwise. */
  function MoveAgv(req: AgvMoveCommand, outcome: WriteOutcome): (r: (WriteCall, DeviceResult))
    ensures r.0.deviceId == req.deviceId
    ensures req.targetType == "coordinate" ==> r.0.stateJson == CoordinateJson(req.x, req.y)
    ensures req.targetType != "coordinate" ==> r.0.stateJson == PointJson(req.pointName)
    ensures r.1.success <==> outcome.WriteOk?
    ensures r.1.success ==> r.1.message == "AGV moving"
    ensures !r.1.success ==> r.1.message == outcome.error.message
  {
    var json := if req.targetType == "coordinate" then CoordinateJson(req.x, req.y) else PointJson(req.pointName);
    (WriteCall(req.deviceId, json), Reply(outcome, "AGV moving"))
  }

  /** `SetAllDevicesState`: a placeholder that writes nothing and reports
      success for zero devices. */
  function SetAllDevicesState(command: string): (r: (seq<WriteCall>, GlobalResult))
    ensures r.0 == []
    ensures r.1.success && r.1.affectedCount == 0
    ensures r.1.message == "Global command executed"
  {
    ([], GlobalResult(true, "Global command executed", 0))
  }

  const StatusPrefix: string := "{\"status\": \""

  /** A reader's view of a JSON text that starts with `prefix`, an opening
      quote included: the text from there up to the next quote. */
  function ReadQuoted(json: string, prefix: string): Option<string> {
    if !StartsWith(json, prefix) then Option.None
    else
      var rest := json[|prefix|..];
      match IndexOf(rest, '"')
      case None => Option.None
      case Some(i) => Some(rest[..i])
  }

  /** A value without a double quote, written between `prefix` and a closing
      quote, is read back as written. */
  lemma {:induction false} QuotedRoundTrip(prefix: string, value: string, suffix: string)
    requires '"' !in value
    ensures ReadQuoted(prefix + value + "\"" + suffix, prefix) == Some(value)
  {
    var json := prefix + value + "\"" + suffix;
    assert json[..|prefix|] == prefix;
    var rest := json[|prefix|..];
    assert rest == value + "\"" + suffix;
    assert rest[|value|] == '"' && rest[..|value|] == value;
    assert IndexOf(rest, '"') == Some(|value|);
  }

  /** The status a reader sees in a state JSON. */
  function ReadStatus(json: string): Option<string> {
    ReadQuoted(json, StatusPrefix)
  }

  /** A command without a double quote is read back as sent. */
  lemma {:induction false} StatusRoundTrip(command: string, payloadJson: string)
    requires '"' !in command
    ensures ReadStatus(StatusJson(command, payloadJson)) == Some(command)
  {
    assert StatusJson(command, payloadJson) == StatusPrefix + command + "\"" + (", \"payload\": " + payloadJson + "}");
    QuotedRoundTrip(StatusPrefix, command, ", \"payload\": " + payloadJson + "}");
  }

  /** With no escaping, a quote inside the command ends the status value
      early: the reader sees a different status. */
  lemma QuotedCommandIsCut()
    ensures ReadStatus(StatusJson("Stop\", \"status\": \"Run", "{}")) == Some("Stop")
  {
    assert StatusJson("Stop\", \"status\": \"Run", "{}") == StatusPrefix + "Stop" + "\"" + ", \"status\": \"Run\", \"payload\": {}}";
    QuotedRoundTrip(StatusPrefix, "Stop", ", \"status\": \"Run\", \"payload\": {}}");
  }

  /** Two commands without quotes produce the same JSON only if they are
      the same command with the same payload. */
  lemma {:induction false} StatusJsonInjective(c1: string, p1: string, c2: string, p2: string)
    requires '"' !in c1 && '"' !in c2
    requires StatusJson(c1, p1) == StatusJson(c2, p2)
    ensures c1 == c2 && p1 == p2
  {
    StatusRoundTrip(c1, p1);
    StatusRoundTrip(c2, p2);
    var s1 := StatusJson(c1, p1);
    var tail := "\", \"payload\": ";
    assert s1 == StatusPrefix + c1 + tail + p1 + "}";
    assert s1 == StatusPrefix + c2 + tail + p2 + "}";
    var k := |StatusPrefix| + |c1| + |tail|;
    assert p1 == s1[k..|s1| - 1];
    assert p2 == s1[k..|s1| - 1];
  }

  const PointPrefix: string := "{\"target\": \""
  const CoordinatePrefix: string := "{\"target\": {"

  /** The write `MoveAgv` issues tells the two kinds of move apart: its JSON
      has an object target exactly when the request's target type is
      `coordinate`, and a point name without a double quote is read back
      from it unchanged. */
  lemma {:induction false} MoveAgvTargetReadBack(req: AgvMoveCommand, outcome: WriteOutcome)
    ensures var json := MoveAgv(req, outcome).0.stateJson;
      && (StartsWith(json, CoordinatePrefix) <==> req.targetType == "coordinate")
      && (req.targetType != "coordinate" && '"' !in req.pointName ==> ReadQuoted(json, PointPrefix) == Some(req.pointName))
  {
    var json := MoveAgv(req, outcome).0.stateJson;
    if req.targetType == "coordinate" {
      assert json[..|CoordinatePrefix|] == CoordinatePrefix;
    } else {
      assert json == PointPrefix + req.pointName + "\"" + "}";
      assert json[|CoordinatePrefix| - 1] == '"';
      if '"' !in req.pointName {
        QuotedRoundTrip(PointPrefix, req.pointName, "}");
      }
    }
  }
}

=== FILE: job_state_machine.dfy ===
/** The job workflow: a fixed cycle
    None -> Detect -> Pick -> Place -> CallAGV -> Dispatch -> Done -> None.
    `Next` receives the raw enum value, so values outside the declared
    range are representable; the source's discard arm maps them to None. */
module JobStateMachine {
  import opened Values
  import opened StateEnums

  /** The phase after `phase`, where `phase` is the enum's underlying value.
      Declared phases advance by one in declaration order and Done wraps to
      None; every undeclared value maps to None. */
  function Next(phase: int): (r: JobPhase)
    ensures 0 <= phase < 7 ==> PhaseValue(r) == (phase + 1) % 7
    ensures !(0 <= phase < 7) ==> r == JobPhase.None
  {
    match PhaseOf(phase)
    case Some(p) => (
      match p
      case None => Detect
      case Detect => Pick
      case Pick => Place
      case Place => CallAGV
      case CallAGV => Dispatch
      case Dispatch => Done
      case Done => JobPhase.None)
    case None => JobPhase.None
  }

  /** `Next` applied to a declared phase. */
  function Step(p: JobPhase): JobPhase {
    Next(PhaseValue(p))
  }

  function Iterate(p: JobPhase, n: nat): JobPhase
    decreases n
  {
    if n == 0 then p else Iterate(Step(p), n - 1)
  }

  /** The transition table, member by member. */
  lemma Transitions()
    ensures Step(JobPhase.None) == Detect && Step(Detect) == Pick
    ensures Step(Pick) == Place && Step(Place) == CallAGV
    ensures Step(CallAGV) == Dispatch && Step(Dispatch) == Done
    ensures Step(Done) == JobPhase.None
  {
  }

  /** Walking `n` steps from a declared phase adds `n` to its value modulo 7. */
  lemma {:induction false} IterateAdvances(p: JobPhase, n: nat)
    ensures PhaseValue(Iterate(p, n)) == (PhaseValue(p) + n) % 7
    decreases n
  {
    if n > 0 {
      IterateAdvances(Step(p), n - 1);
    }
  }

  /** Seven applications of `Next` return every declared phase to itself. */
  lemma {:induction false} SevenStepsReturn(p: JobPhase)
    ensures Iterate(p, 7) == p
  {
    IterateAdvances(p, 7);
    assert PhaseOf(PhaseValue(Iterate(p, 7))) == PhaseOf(PhaseValue(p));
  }

  /** Fewer than seven steps never return to the start: the cycle is one
      single orbit through all seven phases. */
  lemma {:induction false} NoShorterCycle(p: JobPhase, n: nat)
    requires 0 < n < 7
    ensures Iterate(p, n) != p
  {
    IterateAdvances(p, n);
  }

  /** `Next` is injective on the seven declared phases, so it permutes them. */
  lemma {:induction false} StepInjective(a: JobPhase, b: JobPhase)
    requires Step(a) == Step(b)
    ensures a == b
  {
    assert PhaseOf(PhaseValue(a)) == PhaseOf(PhaseValue(b));
  }
}

=== FILE: kepware_read.dfy ===
/** The pure parts of the Kepware OPC UA adapter: node-id construction and
    the mapping of a bulk read's per-item results to an extension bag. */
module KepwareRead {
  import opened Values

  type Bag = map<string, Value>

  /** The adapter's configuration, with the defaults it falls back on. */
  datatype KepwareConfig = KepwareConfig(
    channel: string,
    device: string,
    connectedTag: string,
    runningTag: string,
    speedTag: string,
    controlCommandTag: string,
    reconnectIntervalMs: int,
    connectionTimeoutMs: int)     // handed to the SDK as its operation timeout, which is not modelled

  const DefaultConfig: KepwareConfig :=
    KepwareConfig("Channel1", "Device1", "Connected", "Running", "Speed", "ControlCommand", 5000, 15000)

  const NodePrefix: string := "ns=2;s="

  /** `BuildKepwareNodeId`: the string form `ns=2;s=<channel>.<device>.<tag>`.
      When channel and device contain no dot, the id determines all three
      parts. */
  function BuildNodeId(channel: string, device: string, tag: string): (id: string)
    ensures StartsWith(id, NodePrefix)
    ensures '.' !in channel && '.' !in device ==> ParseNodeId(id) == Some((channel, device, tag))
  {
    var id := NodePrefix + channel + "." + device + "." + tag;
    assert id[..|NodePrefix|] == NodePrefix;
    if '.' !in channel && '.' !in device then
      JoinedIdParses(channel, device, tag);
      id
    else id
  }

  /** Splits a node id back into channel, device and tag at the first two dots. */
  function ParseNodeId(id: string): Option<(string, string, string)> {
    if !StartsWith(id, NodePrefix) then None
    else
      var rest := id[|NodePrefix|..];
      match IndexOf(rest, '.')
      case None => None
      case Some(i) =>
        var tail := rest[i + 1..];
        match IndexOf(tail, '.')
        case None => None
        case Some(j) => Some((rest[..i], tail[..j], tail[j + 1..]))
  }

  /** The parse of a node id built from dot-free channel and device names. */
  lemma {:induction false} JoinedIdParses(channel: string, device: string, tag: string)
    requires '.' !in channel && '.' !in device
    ensures ParseNodeId(NodePrefix + channel + "." + device + "." + tag) == Some((channel, device, tag))
  {
    var id := NodePrefix + channel + "." + device + "." + tag;
    assert id[..|NodePrefix|] == NodePrefix;
    var rest := id[|NodePrefix|..];
    assert rest == channel + "." + device + "." + tag;
    assert rest[|channel|] == '.' && rest[..|channel|] == channel;
    var i := IndexOf(rest, '.');
    assert i == Some(|channel|);
    var tail := rest[|channel| + 1..];
    assert tail == device + "." + tag;
    assert tail[|device|] == '.' && tail[..|device|] == device;
    var j := IndexOf(tail, '.');
    assert j == Some(|device|);
    assert tail[|device| + 1..] == tag;
  }

  /** With a dot inside the channel name, two different configurations
      address the same node. */
  lemma DottedNamesCollide()
    ensures BuildNodeId("Line.1", "Press", "Speed") == BuildNodeId("Line", "1.Press", "Speed")
  {
  }

  /** The status of one item of a read or a write. `IsGood` holds only of
      Good and `IsBad` only of Bad; Uncertain is neither. */
  datatype StatusCode = Good | Uncertain | Bad

  /** One item of a bulk read: its status and its value (`None` for null). */
  datatype DataValue = DataValue(status: StatusCode, value: Option<Value>)

  /** Item `i` exists, has status Good and a non-null value. */
  predicate UsableItem(results: Option<seq<DataValue>>, i: nat) {
    results.Some? && i < |results.value| && results.value[i].status == Good && results.value[i].value.Some?
  }

  /** The value of item `i` of a read, or `dflt` if the result list is
      null or too short, the item's status is not Good, or its value is null. */
  function ItemOr(results: Option<seq<DataValue>>, i: nat, dflt: Value): (v: Value)
    ensures UsableItem(results, i) ==> v == results.value[i].value.value
    ensures !UsableItem(results, i) ==> v == dflt
  {
    if results.Some? && |results.value| > i && results.value[i].status == Good then
      match results.value[i].value
      case Some(x) => x
      case None => dflt
    else dflt
  }

  /** The node ids of one bulk read, in item order. */
  function ReadNodes(cfg: KepwareConfig): seq<string> {
    [BuildNodeId(cfg.channel, cfg.device, cfg.connectedTag),
     BuildNodeId(cfg.channel, cfg.device, cfg.runningTag),
     BuildNodeId(cfg.channel, cfg.device, cfg.speedTag)]
  }

  function DeviceNameOf(cfg: KepwareConfig): string {
    "Kepware_" + cfg.channel + "_" + cfg.device
  }

  /** The mapping of a bulk read's results to the returned bag. Items fall
      back to `false`, `false` and `0.0`. `deviceStatus` unboxes the
      connected item as a `bool`, which throws `InvalidCastException` when
      the device sent a value of another type. */
  function MapReadResults(cfg: KepwareConfig, results: Option<seq<DataValue>>): (r: Result<Bag, Exn>)
    ensures r.Ok? <==> ItemOr(results, 0, VBool(false)).VBool?
    ensures r.Err? ==> r.error.kind == InvalidCast
    ensures r.Ok? ==>
      && r.value.Keys == {"opc.connected", "opc.conveyor.running", "opc.conveyor.speed", "deviceName", "deviceStatus"}
      && r.value["opc.connected"] == ItemOr(results, 0, VBool(false))
      && r.value["opc.conveyor.running"] == ItemOr(results, 1, VBool(false))
      && r.value["opc.conveyor.speed"] == ItemOr(results, 2, VDouble("0"))
      && r.value["deviceName"] == VStr(DeviceNameOf(cfg))
      && (r.value["deviceStatus"] == VStr("Online") <==> r.value["opc.connected"] == VBool(true))
      && (r.value["deviceStatus"] == VStr("Offline") <==> r.value["opc.connected"] == VBool(false))
  {
    var connected := ItemOr(results, 0, VBool(false));
    var running := ItemOr(results, 1, VBool(false));
    var speed := ItemOr(results, 2, VDouble("0"));
    match connected
    case VBool(b) =>
      Ok(map[
        "opc.connected" := connected,
        "opc.conveyor.running" := running,
        "opc.conveyor.speed" := speed,
        "deviceName" := VStr(DeviceNameOf(cfg)),
        "deviceStatus" := VStr(if b then "Online" else "Offline")])
    case _ => Err(Exn(InvalidCast, "Unable to cast object to type 'System.Boolean'."))
  }

  /** A read in which the first two items report a bad status and the third
      is good yields `false`, `false` and the third item's value, and does
      not raise. */
  lemma {:induction false} PartialFailureDefaults(cfg: KepwareConfig, speed: Value)
    ensures var r := MapReadResults(cfg, Some([DataValue(Bad, Some(VBool(true))),
                                              DataValue(Uncertain, Some(VBool(true))),
                                              DataValue(Good, Some(speed))]));
      && r.Ok?
      && r.value["opc.connected"] == VBool(false)
      && r.value["opc.conveyor.running"] == VBool(false)
      && r.value["opc.conveyor.speed"] == speed
      && r.value["deviceStatus"] == VStr("Offline")
  {
  }
}

=== FILE: opcua_client.dfy ===
/** The connection manager of the Kepware OPC UA adapter
    (`OpcUaClientAdapter`): one session to the device proxy, a lock that
    serialises connection attempts, and a background retry loop started on
    failure.

    The SDK's connect, read, write and close calls are oracles passed in as
    parameters. `EnsureConnectedAsync` is two steps: reaching
    `_connectionLock.WaitAsync`, which takes a free lock or queues the
    caller, and the critical section of whoever holds the lock, which ends
    by handing the lock to the first queued caller. An uncontended call runs
    both steps at once. Each retry loop started is identified by the number
    of its cancellation source; `loops` holds the loops still running.

    The retry source is `NoRetry` (null), `Active(id)`, or `Cancelled(id)`.
    A successful connect cancels the source and sets it to null, so the only
    way to reach `Cancelled` is `Dispose`, which cancels the source and then
    disposes it without clearing the field. A disposed
    `CancellationTokenSource` throws `ObjectDisposedException` from both
    `Cancel()` and `Token`, which the model follows. */
module OpcUaClient {
  import opened Values
  import opened KepwareRead

  /** `_session`: null, a session object that is no longer connected, or a connected one. */
  datatype Session = NoSession | Stale | Live

  /** `_reconnectCts`. */
  datatype Retry = NoRetry | Active(id: nat) | Cancelled(id: nat)

  datatype Conn = Conn(
    session: Session,
    retry: Retry,
    locked: bool,        // a caller holds `_connectionLock` and has not yet left its critical section
    waiters: nat,        // callers queued in `_connectionLock.WaitAsync`
    disposed: bool,      // `_connectionLock` has been disposed
    loops: set<nat>,     // retry loops still running, by source number
    nextId: nat,         // number of the next retry source to be created
    attempts: nat)       // connection attempts made so far

  /** A freshly constructed adapter. */
  const Fresh: Conn := Conn(NoSession, NoRetry, false, 0, false, {}, 0, 0)

  /** The outcome of one call: it returned a value, raised, or is suspended
      waiting for the lock. */
  datatype Call<T> = Returned(conn: Conn, value: T) | Raised(conn: Conn, error: Exn) | Suspended(conn: Conn)

  const Disposed: Exn := Exn(ObjectDisposed, "Cannot access a disposed object.")
  const Canceled: Exn := Exn(OperationCanceled, "The operation was canceled.")

  /** The states the operations keep: nobody queues on a free lock (unless
      the lock is disposed, when queued callers are never woken), every
      source number is allocated, a live session of an adapter in use has
      no retry pending, and only `Dispose` leaves a cancelled source.

      A caller inside the critical section when `Dispose` runs carries on,
      so a disposed adapter can still gain a live session or start a retry
      loop; the invariant does not exclude either. */
  ghost predicate Valid(c: Conn) {
    && (!c.locked && !c.disposed ==> c.waiters == 0)
    && (forall k :: k in c.loops ==> k < c.nextId)
    && (!c.retry.NoRetry? ==> c.retry.id < c.nextId)
    && (c.session == Live && !c.disposed ==> c.retry == NoRetry)
    && (c.retry.Cancelled? ==> c.disposed)
  }

  /** `StartReconnectTask(ct)`. A no-op while a source exists whose token is
      not cancelled; otherwise a new source is created and a loop started on
      the token linked to `ct` (a loop whose token is already cancelled never
      runs). */
  function StartReconnect(c: Conn, tokenCancelled: bool): (r: Call<()>)
    ensures c.retry.Active? ==> r == Returned(c, ())
    ensures c.retry.NoRetry? ==>
      && r.Returned? && r.conn.retry == Active(c.nextId)
      && r.conn.nextId == c.nextId + 1
      && r.conn.loops == (if tokenCancelled then c.loops else c.loops + {c.nextId})
      && r.conn == c.(retry := r.conn.retry, nextId := r.conn.nextId, loops := r.conn.loops)
    ensures c.retry.Cancelled? ==> r == Raised(c, Disposed)
  {
    match c.retry
    case Active(_) => Returned(c, ())
    case Cancelled(_) => Raised(c, Disposed)
    case NoRetry =>
      var id := c.nextId;
      Returned(c.(retry := Active(id), nextId := id + 1,
                  loops := if tokenCancelled then c.loops else c.loops + {id}), ())
  }

  /** The `catch` arm of a connection attempt: start the retry and rethrow
      (unless starting the retry throws first). */
  function FailConnect(c: Conn, tokenCancelled: bool, e: Exn): Call<()> {
    match StartReconnect(c, tokenCancelled)
    case Returned(c1, _) => Raised(c1, e)
    case Raised(c1, e1) => Raised(c1, e1)
    case Suspended(c1) => Suspended(c1)
  }

  /** `_connectionLock.WaitAsync(ct)` once the fast path has missed: a
      disposed semaphore throws, then a cancelled token throws without
      looking at the lock, then a free lock is taken and a held one queues
      the caller. These throws come before the `try`, so no retry starts. */
  function Acquire(c: Conn, tokenCancelled: bool): (r: Call<()>)
    ensures c.disposed ==> r == Raised(c, Disposed)
    ensures !c.disposed && tokenCancelled ==> r == Raised(c, Canceled)
    ensures !c.disposed && !tokenCancelled && c.locked ==> r == Suspended(c.(waiters := c.waiters + 1))
    ensures !c.disposed && !tokenCancelled && !c.locked ==> r == Returned(c.(locked := true), ())
  {
    if c.disposed then Raised(c, Disposed)
    else if tokenCancelled then Raised(c, Canceled)
    else if c.locked then Suspended(c.(waiters := c.waiters + 1))
    else Returned(c.(locked := true), ())
  }

  /** A caller queued in `_connectionLock.WaitAsync(ct)` whose token is
      cancelled while it waits: the semaphore drops it from the queue and
      it throws `OperationCanceledException` (before the `try`, so no retry
      starts). The holder, the session and the other queued callers are
      untouched. */
  function LeaveQueue(c: Conn): (r: Call<()>)
    requires c.waiters > 0
    ensures r.Raised? && r.error == Canceled
    ensures r.conn.waiters == c.waiters - 1
    ensures r.conn.(waiters := c.waiters) == c
  {
    Raised(c.(waiters := c.waiters - 1), Canceled)
  }

  /** The `finally` arm: `Release()` on a disposed semaphore throws, and that
      exception replaces the outcome (the queued callers are never woken);
      otherwise the lock passes to the first queued caller, or becomes free. */
  function ReleaseLock<T>(r: Call<T>): Call<T> {
    var c := r.conn;
    if c.disposed then Raised(c.(locked := false), Disposed)
    else
      var c1 := if c.waiters > 0 then c.(waiters := c.waiters - 1) else c.(locked := false);
      match r
      case Returned(_, v) => Returned(c1, v)
      case Raised(_, e) => Raised(c1, e)
      case Suspended(_) => Suspended(c1)
  }

  /** The body of the critical section: the double check, disposal of a
      stale session (errors swallowed), one connection attempt, and on
      success the cancellation and clearing of any retry source. */
  function ConnectHoldingLock(c: Conn, tokenCancelled: bool, connectFault: Option<Exn>): Call<()> {
    if c.session == Live then Returned(c, ())
    else
      var tried := c.(session := NoSession, attempts := c.attempts + 1);
      match connectFault
      case Some(e) => FailConnect(tried, tokenCancelled, e)
      case None =>
        var live := tried.(session := Live);
        if live.retry.Cancelled? then FailConnect(live, tokenCancelled, Disposed)
        else Returned(live.(retry := NoRetry), ())
  }

  /** The critical section of the caller holding the lock, which releases
      the lock on every path out. `connectFault` is the oracle for
      `Session.Create`: `None` when it succeeds. */
  function Critical(c: Conn, tokenCancelled: bool, connectFault: Option<Exn>): (r: Call<()>)
    ensures !r.Suspended?
    ensures c.session == Live && !c.disposed ==>
      r.Returned? && r.conn == (if c.waiters > 0 then c.(waiters := c.waiters - 1) else c.(locked := false))
    ensures c.session != Live && !c.disposed && !c.retry.Cancelled? && connectFault.None? ==>
      && r.Returned? && r.conn.session == Live && r.conn.retry == NoRetry && r.conn.attempts == c.attempts + 1
      && r.conn.waiters == (if c.waiters > 0 then c.waiters - 1 else 0)
      && r.conn.locked == (c.locked && c.waiters > 0)
    ensures c.session != Live && !c.disposed && connectFault.Some? ==>
      && r.Raised? && r.conn.session == NoSession && r.conn.attempts == c.attempts + 1
      && r.conn.waiters == (if c.waiters > 0 then c.waiters - 1 else 0)
      && r.conn.locked == (c.locked && c.waiters > 0)
    ensures c.disposed ==> r.Raised? && r.error == Disposed && !r.conn.locked && r.conn.waiters == c.waiters
  {
    ReleaseLock(ConnectHoldingLock(c, tokenCancelled, connectFault))
  }

  /** `EnsureConnectedAsync(ct)` for a caller that gets through without
      waiting. A live session returns at once. Otherwise the caller reaches
      the lock: it may throw there, or queue behind the holder (and is then
      suspended until its turn comes), or take the free lock and run the
      critical section. */
  function EnsureConnected(c: Conn, tokenCancelled: bool, connectFault: Option<Exn>): (r: Call<()>)
    ensures c.session == Live ==> r == Returned(c, ())
    ensures c.session != Live && c.disposed ==> r == Raised(c, Disposed)
    ensures c.session != Live && !c.disposed && tokenCancelled ==> r == Raised(c, Canceled)
    ensures c.session != Live && !c.disposed && !tokenCancelled && c.locked ==>
      r == Suspended(c.(waiters := c.waiters + 1))
    ensures !c.locked && c.waiters == 0 ==> !r.conn.locked && r.conn.waiters == 0
    ensures r.Returned? ==> r.conn.session == Live
    ensures r.Returned? && c.session != Live ==>
      && connectFault.None? && r.conn.retry == NoRetry && r.conn.attempts == c.attempts + 1
    ensures connectFault.Some? && c.session != Live && !c.disposed && !c.locked && !tokenCancelled
            && !c.retry.Cancelled? ==>
      && r == Raised(r.conn, connectFault.value)
      && r.conn.retry.Active?
      && r.conn.session == NoSession
      && (c.retry.Active? ==> r.conn.retry == c.retry && r.conn.loops == c.loops)
  {
    if c.session == Live then Returned(c, ())
    else match Acquire(c, tokenCancelled)
      case Returned(c1, _) => Critical(c1, tokenCancelled, connectFault)
      case Raised(c1, e) => Raised(c1, e)
      case Suspended(c1) => Suspended(c1)
  }

  /** The SDK's keep-alive notices the connection is gone: the session
      object stays but is no longer connected. */
  function SessionDrops(c: Conn): (r: Conn)
    ensures r.session != Live
  {
    if c.session == Live then c.(session := Stale) else c
  }

  /** The `catch` arm shared by read and write: when the session is null or
      no longer connected it is cleared and a retry is started; the error is
      rethrown, unless restarting the retry throws first. The result is the
      adapter afterwards and the exception that leaves the call. */
  function IoFailure(c: Conn, tokenCancelled: bool, e: Exn): (r: (Conn, Exn))
    ensures c.session == Live ==> r == (c, e)
    ensures c.session != Live && c.retry.Active? ==> r == (c.(session := NoSession), e)
    ensures c.session != Live && c.retry.NoRetry? ==>
      && r.1 == e && r.0.session == NoSession
      && r.0.retry == Active(c.nextId) && r.0.nextId == c.nextId + 1
    ensures c.session != Live && c.retry.Cancelled? ==> r == (c.(session := NoSession), Disposed)
  {
    if c.session == Live then (c, e)
    else
      match StartReconnect(c.(session := NoSession), tokenCancelled)
      case Returned(c1, _) => (c1, e)
      case Raised(c1, e1) => (c1, e1)
      case Suspended(c1) => (c1, e)
  }

  /** The same arm, as the outcome of a read or a write. */
  function FailIo<T>(c: Conn, tokenCancelled: bool, e: Exn): Call<T> {
    var (c1, e1) := IoFailure(c, tokenCancelled, e);
    Raised(c1, e1)
  }

  /** The SDK's answer to a bulk read. */
  datatype ReadResponse = ReadTransportFailure(error: Exn) | ReadResults(results: Option<seq<DataValue>>)

  /** `ReadStateAsync(ct)`. After connecting, one bulk read; `liveAfter`
      tells whether the session is still connected once the read is over.
      A failure of the read or of the result mapping runs the shared
      `catch` arm. */
  function ReadState(c: Conn, cfg: KepwareConfig, tokenCancelled: bool, connectFault: Option<Exn>,
                     response: ReadResponse, liveAfter: bool): (r: Call<Bag>)
    ensures !c.locked && c.waiters == 0 ==> !r.conn.locked && r.conn.waiters == 0
    ensures r.Returned? ==>
      && response.ReadResults?
      && MapReadResults(cfg, response.results) == Ok(r.value)
    ensures r.Raised? && r.conn.session == Live ==> r.conn.loops == c.loops && r.conn.nextId == c.nextId
  {
    match EnsureConnected(c, tokenCancelled, connectFault)
    case Raised(c1, e) => Raised(c1, e)
    case Suspended(c1) => Suspended(c1)
    case Returned(c1, _) =>
      var after := if liveAfter then c1 else SessionDrops(c1);
      var mapped := match response
        case ReadTransportFailure(e) => Err(e)
        case ReadResults(rs) => MapReadResults(cfg, rs);
      match mapped
      case Ok(bag) => Returned(after, bag)
      case Err(e) => FailIo(after, tokenCancelled, e)
  }

  /** The SDK's answer to a write: transport failure, or the per-item
      status list (which may be null or empty). */
  datatype WriteResponse = WriteTransportFailure(error: Exn) | WriteResults(results: Option<seq<StatusCode>>)

  /** The node and value a write sends. */
  datatype WriteRequest = WriteRequest(nodeId: string, value: string)

  /** The write's result check: only a first item with a Bad status fails. */
  function CheckWrite(response: WriteResponse): (r: Option<Exn>)
    ensures response.WriteResults? ==>
      (r.Some? <==> response.results.Some? && |response.results.value| > 0 && response.results.value[0] == Bad)
    ensures response.WriteResults? && r.Some? ==> r.value.kind == InvalidOperation
  {
    match response
    case WriteTransportFailure(e) => Some(e)
    case WriteResults(rs) =>
      if rs.Some? && |rs.value| > 0 && rs.value[0] == Bad
      then Some(Exn(InvalidOperation, "Write failed: Bad"))
      else None
  }

  /** `WriteStateAsync(deviceId, stateJson)`: connect (with no cancellation
      token), then write `stateJson` to the configured control-command tag.
      The device id takes no part in addressing the write. */
  function WriteState(c: Conn, cfg: KepwareConfig, deviceId: string, stateJson: string,
                      connectFault: Option<Exn>, response: WriteResponse, liveAfter: bool): (r: Call<WriteRequest>)
    ensures !c.locked && c.waiters == 0 ==> !r.conn.locked && r.conn.waiters == 0
    ensures r.Returned? ==>
      && r.value == WriteRequest(BuildNodeId(cfg.channel, cfg.device, cfg.controlCommandTag), stateJson)
      && CheckWrite(response).None?
    ensures r.Raised? && r.conn.session == Live ==> r.conn.loops == c.loops && r.conn.nextId == c.nextId
  {
    match EnsureConnected(c, false, connectFault)
    case Raised(c1, e) => Raised(c1, e)
    case Suspended(c1) => Suspended(c1)
    case Returned(c1, _) =>
      var after := if liveAfter then c1 else SessionDrops(c1);
      var request := WriteRequest(BuildNodeId(cfg.channel, cfg.device, cfg.controlCommandTag), stateJson);
      match CheckWrite(response)
      case None => Returned(after, request)
      case Some(e) => FailIo(after, false, e)
  }

  /** `Dispose()`: cancel and dispose the retry source (a second cancel of a
      disposed source throws), close a connected session with errors
      swallowed, dispose the session and the lock. */
  function Dispose(c: Conn): (r: Call<()>)
    ensures c.retry.Cancelled? ==> r == Raised(c, Disposed)
    ensures !c.retry.Cancelled? ==>
      && r.Returned?
      && r.conn.disposed && r.conn.session != Live
      && (c.retry.Active? ==> r.conn.retry == Cancelled(c.retry.id))
      && (c.retry.NoRetry? ==> r.conn.retry == NoRetry)
  {
    var session := if c.session == NoSession then NoSession else Stale;
    match c.retry
    case Cancelled(_) => Raised(c, Disposed)
    case Active(id) => Returned(c.(retry := Cancelled(id), session := session, disposed := true), ())
    case NoRetry => Returned(c.(session := session, disposed := true), ())
  }

  /** One iteration of retry loop `k`: its linked token is cancelled when the
      outer token is, or when its own source is no longer the active one.
      Otherwise it waits `intervalMs` and tries to connect; it ends on
      success or on a cancellation, and keeps going on any other failure.
      A wait of `-1` lasts until the linked token is cancelled, and a count
      below `-1` makes `Task.Delay` throw, which the loop swallows: in both
      cases the iteration never reaches the connect. */
  datatype LoopStep = LoopStep(conn: Conn, running: bool)

  function RetryLoopStep(c: Conn, k: nat, intervalMs: int, outerCancelled: bool, connectFault: Option<Exn>): (r: LoopStep)
    requires k in c.loops
    ensures r.conn.nextId == c.nextId
    ensures r.running ==> r.conn.loops == c.loops
    ensures !r.running ==> r.conn.loops == c.loops - {k}
    ensures r.running ==> c.retry == Active(k) && r.conn.retry == Active(k)
    ensures c.retry != Active(k) || outerCancelled ==> !r.running && r.conn == c.(loops := c.loops - {k})
    ensures c.retry == Active(k) && !outerCancelled && intervalMs < 0 ==> r == LoopStep(c, true)
    ensures Valid(c) && c.retry == Active(k) && !outerCancelled && intervalMs >= 0 && !c.locked && !c.disposed ==>
      (r.running <==> connectFault.Some? && connectFault.value.kind != OperationCanceled)
  {
    var linkedCancelled := outerCancelled || c.retry != Active(k);
    if linkedCancelled then LoopStep(c.(loops := c.loops - {k}), false)
    else if intervalMs == -1 then LoopStep(c, true)
    else if !ValidDelay(intervalMs) then LoopStep(c, true)
    else
      match EnsureConnected(c, false, connectFault)
      case Returned(c1, _) => LoopStep(c1.(loops := c1.loops - {k}), false)
      case Raised(c1, e) =>
        if e.kind == OperationCanceled || c1.retry != Active(k) then LoopStep(c1.(loops := c1.loops - {k}), false)
        else LoopStep(c1, true)
      case Suspended(c1) => LoopStep(c1, true)
  }

  /** The events that change the manager: the four operations, a caller
      that reaches the lock and stays there, the critical section of the
      caller holding the lock, a queued caller cancelled while it waits, the loss of the connection, and one
      iteration of a running retry loop. */
  datatype Event =
    | EvEnsure(tokenCancelled: bool, connectFault: Option<Exn>)
    | EvRead(cfg: KepwareConfig, tokenCancelled: bool, connectFault: Option<Exn>, readResponse: ReadResponse, liveAfter: bool)
    | EvWrite(cfg: KepwareConfig, deviceId: string, stateJson: string, connectFault: Option<Exn>,
              writeResponse: WriteResponse, liveAfter: bool)
    | EvEnter(tokenCancelled: bool)
    | EvCritical(tokenCancelled: bool, connectFault: Option<Exn>)
    | EvLeaveQueue
    | EvDrop
    | EvDispose
    | EvLoop(cfg: KepwareConfig, k: nat, outerCancelled: bool, connectFault: Option<Exn>)

  function Apply(c: Conn, ev: Event): Conn {
    match ev
    case EvEnsure(t, f) => EnsureConnected(c, t, f).conn
    case EvRead(cfg, t, f, resp, live) => ReadState(c, cfg, t, f, resp, live).conn
    case EvWrite(cfg, d, j, f, resp, live) => WriteState(c, cfg, d, j, f, resp, live).conn
    case EvEnter(t) => if c.session == Live then c else Acquire(c, t).conn
    case EvCritical(t, f) => if c.locked then Critical(c, t, f).conn else c
    case EvLeaveQueue => if c.waiters > 0 then LeaveQueue(c).conn else c
    case EvDrop => SessionDrops(c)
    case EvDispose => Dispose(c).conn
    case EvLoop(cfg, k, o, f) => if k in c.loops then RetryLoopStep(c, k, cfg.reconnectIntervalMs, o, f).conn else c
  }

  function Run(c: Conn, evs: seq<Event>): Conn
    decreases |evs|
  {
    if evs == [] then c else Run(Apply(c, evs[0]), evs[1..])
  }

  lemma FreshIsValid()
    ensures Valid(Fresh)
  {
  }

  /** The critical section keeps a valid state valid. */
  lemma {:induction false} CriticalKeepsValid(c: Conn, t: bool, f: Option<Exn>)
    requires Valid(c) && c.locked
    ensures Valid(Critical(c, t, f).conn)
  {
  }

  /** Connecting from a valid state keeps it valid, and suspends only when
      another caller holds the lock. */
  lemma {:induction false} EnsureConnectedKeepsValid(c: Conn, t: bool, f: Option<Exn>)
    requires Valid(c)
    ensures EnsureConnected(c, t, f).Suspended? ==> c.locked
    ensures Valid(EnsureConnected(c, t, f).conn)
  {
    if c.session != Live && !c.disposed && !t && !c.locked {
      CriticalKeepsValid(c.(locked := true), t, f);
    }
  }

  lemma {:induction false} ReadKeepsValid(c: Conn, cfg: KepwareConfig, t: bool, f: Option<Exn>, resp: ReadResponse, live: bool)
    requires Valid(c)
    ensures Valid(ReadState(c, cfg, t, f, resp, live).conn)
  {
    EnsureConnectedKeepsValid(c, t, f);
  }

  lemma {:induction false} WriteKeepsValid(c: Conn, cfg: KepwareConfig, d: string, j: string, f: Option<Exn>,
                                           resp: WriteResponse, live: bool)
    requires Valid(c)
    ensures Valid(WriteState(c, cfg, d, j, f, resp, live).conn)
  {
    EnsureConnectedKeepsValid(c, false, f);
  }

  lemma {:induction false} LoopKeepsValid(c: Conn, k: nat, intervalMs: int, o: bool, f: Option<Exn>)
    requires Valid(c) && k in c.loops
    ensures Valid(RetryLoopStep(c, k, intervalMs, o, f).conn)
  {
    EnsureConnectedKeepsValid(c, false, f);
  }

  /** Every event keeps a valid state valid. */
  lemma {:induction false} ApplyKeepsValid(c: Conn, ev: Event)
    requires Valid(c)
    ensures Valid(Apply(c, ev))
  {
    match ev
    case EvEnsure(t, f) =>
      EnsureConnectedKeepsValid(c, t, f);
    case EvRead(cfg, t, f, resp, live) =>
      ReadKeepsValid(c, cfg, t, f, resp, live);
    case EvWrite(cfg, d, j, f, resp, live) =>
      WriteKeepsValid(c, cfg, d, j, f, resp, live);
    case EvEnter(t) =>
    case EvCritical(t, f) =>
      if c.locked {
        CriticalKeepsValid(c, t, f);
      }
    case EvLeaveQueue =>
    case EvDrop =>
    case EvDispose =>
    case EvLoop(cfg, k, o, f) =>
      if k in c.loops {
        LoopKeepsValid(c, k, cfg.reconnectIntervalMs, o, f);
      }
  }

  /** Every state reachable from a fresh adapter is valid. */
  lemma {:induction false} RunKeepsValid(c: Conn, evs: seq<Event>)
    requires Valid(c)
    ensures Valid(Run(c, evs))
    decreases |evs|
  {
    if evs != [] {
      ApplyKeepsValid(c, evs[0]);
      RunKeepsValid(Apply(c, evs[0]), evs[1..]);
    }
  }

  /** A read or write failure with the session still connected rethrows and
      changes nothing; with the session gone it clears the session and
      starts exactly one retry loop. */
  lemma {:induction false} ReadFailureHandling(c: Conn, cfg: KepwareConfig, e: Exn, liveAfter: bool)
    requires Valid(c) && c.session == Live
    ensures var r := ReadState(c, cfg, false, None, ReadTransportFailure(e), liveAfter);
      && (liveAfter ==> r == Raised(c, e))
      && (!liveAfter && !c.disposed ==>
            && r == Raised(r.conn, e)
            && r.conn.session == NoSession && r.conn.retry == Active(c.nextId)
            && r.conn.loops == c.loops + {c.nextId})
  {
  }

  /** A Bad first write status raises `InvalidOperationException`; when
      the session is still connected nothing is retried. */
  lemma {:induction false} WriteRejectedNotRetried(c: Conn, cfg: KepwareConfig, d: string, json: string,
                                                   rest: seq<StatusCode>)
    requires Valid(c) && c.session == Live
    ensures var r := WriteState(c, cfg, d, json, None, WriteResults(Some([Bad] + rest)), true);
      && r.Raised? && r.error.kind == InvalidOperation && r.conn == c
  {
  }

  /** Null and empty write result lists count as success, as does any first
      status that is not Bad. */
  lemma {:induction false} WriteWithoutBadStatusSucceeds(c: Conn, cfg: KepwareConfig, d: string, json: string,
                                                         results: Option<seq<StatusCode>>)
    requires Valid(c) && c.session == Live
    requires results.None? || |results.value| == 0 || results.value[0] != Bad
    ensures WriteState(c, cfg, d, json, None, WriteResults(results), true).Returned?
  {
  }

  /** The write goes to the same node whatever device id the caller names. */
  lemma {:induction false} WriteIgnoresDeviceId(c: Conn, cfg: KepwareConfig, d1: string, d2: string, json: string,
                                                f: Option<Exn>, resp: WriteResponse, live: bool)
    ensures WriteState(c, cfg, d1, json, f, resp, live) == WriteState(c, cfg, d2, json, f, resp, live)
  {
  }

  /** `Dispose` a second time throws when a retry source had existed, since
      cancelling a disposed source throws; without one it is idempotent. */
  lemma {:induction false} DisposeTwice(c: Conn)
    requires !c.retry.Cancelled?
    ensures var once := Dispose(c).conn;
      && (c.retry.Active? ==> Dispose(once) == Raised(once, Disposed))
      && (c.retry.NoRetry? ==> Dispose(once) == Returned(once, ()))
  {
  }

  /** After disposal every connection attempt fails with
      `ObjectDisposedException` and changes nothing. */
  lemma {:induction false} NoConnectAfterDispose(c: Conn, t: bool, f: Option<Exn>)
    requires Valid(c) && !c.retry.Cancelled?
    ensures var d := Dispose(c).conn; EnsureConnected(d, t, f) == Raised(d, Disposed)
  {
  }

  /** `n` callers miss the fast path one after another and reach the lock. */
  function EnterAll(c: Conn, n: nat): Conn
    decreases n
  {
    if n == 0 then c else Apply(EnterAll(c, n - 1), EvEnter(false))
  }

  /** The critical sections of the lock holder and then of each caller the
      lock is handed to, one connect outcome each, while the lock is held.
      Also counts the sections that returned normally. */
  function DrainAll(c: Conn, faults: seq<Option<Exn>>): (Conn, nat)
    decreases |faults|
  {
    if faults == [] || !c.locked then (c, 0)
    else
      var r := Critical(c, false, faults[0]);
      var rest := DrainAll(r.conn, faults[1..]);
      (rest.0, rest.1 + if r.Returned? then 1 else 0)
  }

  /** While disconnected, the first of `n + 1` callers takes the lock and the
      other `n` queue behind it. */
  lemma {:induction false} EnterQueues(c: Conn, n: nat)
    requires c.session != Live && !c.locked && c.waiters == 0 && !c.disposed
    ensures EnterAll(c, n + 1) == c.(locked := true, waiters := n)
    decreases n
  {
    if n > 0 {
      EnterQueues(c, n - 1);
    }
  }

  /** Once the session is live, each queued caller's critical section
      returns through the double check: none of them connects again. */
  lemma {:induction false} QueuedCallersSkipConnect(c: Conn, faults: seq<Option<Exn>>)
    requires c.session == Live && c.locked && !c.disposed && |faults| == c.waiters + 1
    ensures DrainAll(c, faults) == (c.(locked := false, waiters := 0), |faults|)
    decreases |faults|
  {
    if c.waiters > 0 {
      var r := Critical(c, false, faults[0]);
      assert r == Returned(c.(waiters := c.waiters - 1), ());
      QueuedCallersSkipConnect(r.conn, faults[1..]);
    }
  }

  /** Callers that all miss the fast path while disconnected make one
      connection attempt between them when the first attempt succeeds:
      every one of them returns, and the lock ends free with nobody queued. */
  lemma {:induction false} OneAttemptPerRound(c: Conn, n: nat, rest: seq<Option<Exn>>)
    requires Valid(c) && c.session != Live && !c.locked && !c.disposed && |rest| == n
    ensures var d := DrainAll(EnterAll(c, n + 1), [None] + rest);
      && d.1 == n + 1
      && d.0.session == Live && d.0.attempts == c.attempts + 1 && d.0.retry == NoRetry
      && !d.0.locked && d.0.waiters == 0
  {
    EnterQueues(c, n);
    var e := EnterAll(c, n + 1);
    var r := Critical(e, false, None);
    assert r.Returned? && r.conn.session == Live;
    if n > 0 {
      QueuedCallersSkipConnect(r.conn, rest);
      assert ([None] + rest)[1..] == rest;
    }
  }

  /** The double check only saves a connect after a success: when the
      holder's attempt fails, the next queued caller makes its own. */
  lemma {:induction false} FailedHolderLetsNextTry(c: Conn, e: Exn, f: Option<Exn>)
    requires Valid(c) && c.session != Live && c.locked && c.waiters > 0 && !c.disposed
    ensures var r1 := Critical(c, false, Some(e));
      && r1.Raised? && r1.conn.locked && r1.conn.waiters == c.waiters - 1
      && Critical(r1.conn, false, f).conn.attempts == c.attempts + 2
  {
  }

  /** A queued caller whose token is cancelled never reaches the critical
      section: when the holder's attempt then fails, the lock is freed with
      nobody to hand it to, and no second attempt is made. */
  lemma {:induction false} CancelledWaiterNeverConnects(c: Conn, e: Exn)
    requires Valid(c) && c.session != Live && c.locked && c.waiters == 1 && !c.disposed
    ensures var d := LeaveQueue(c).conn;
      && d.locked && d.waiters == 0
      && var r := Critical(d, false, Some(e));
      && !r.conn.locked && r.conn.waiters == 0 && r.conn.attempts == c.attempts + 1
      && Apply(r.conn, EvCritical(false, Option.None)) == r.conn
  {
  }

  /** A cancelled token throws `OperationCanceledException` at the lock
      before it is looked at, even when another caller holds it; no retry
      is started and nothing changes. */
  lemma {:induction false} CancelledCallerDoesNotQueue(c: Conn, f: Option<Exn>)
    requires c.session != Live && !c.disposed && c.locked
    ensures EnsureConnected(c, true, f) == Raised(c, Canceled)
  {
  }

  /** When the outer token of the running loop is cancelled (process
      shutdown), the loop ends but its source stays active, so every later
      `StartReconnectTask` is a no-op until a connection succeeds: no retry
      loop runs although one is recorded. */
  lemma {:induction false} RetryStuckAfterOuterCancel(c: Conn, k: nat, intervalMs: int, f: Option<Exn>)
    requires Valid(c) && c.retry == Active(k) && c.loops == {k}
    ensures var after := RetryLoopStep(c, k, intervalMs, true, f).conn;
      && after.loops == {} && after.retry == Active(k)
      && StartReconnect(after, false) == Returned(after, ())
  {
  }

  /** The retry loop `k` run against a schedule of connection outcomes, one
      per iteration: the state it leaves, the iterations it ran, and
      whether it is still running when the schedule is exhausted. */
  function RetryRun(c: Conn, k: nat, intervalMs: int, faults: seq<Option<Exn>>): (Conn, nat, bool)
    requires k in c.loops
    decreases |faults|
  {
    if faults == [] then (c, 0, true)
    else
      var step := RetryLoopStep(c, k, intervalMs, false, faults[0]);
      if !step.running then (step.conn, 1, false)
      else
        var rest := RetryRun(step.conn, k, intervalMs, faults[1..]);
        (rest.0, rest.1 + 1, rest.2)
  }

  /** Runs retry loop `k` against a schedule of connection outcomes, one per
      iteration, until the loop ends or the schedule is exhausted, with no
      other caller acting meanwhile. */
  method RunRetryLoop(c: Conn, k: nat, intervalMs: int, faults: seq<Option<Exn>>) returns (d: Conn, used: nat, running: bool)
    requires Valid(c) && c.retry == Active(k) && k in c.loops
    ensures (d, used, running) == RetryRun(c, k, intervalMs, faults)
    ensures used <= |faults|
    ensures d.nextId == c.nextId && d.loops <= c.loops
    ensures Valid(d)
    ensures running ==> used == |faults| && k in d.loops && d.retry == Active(k)
    ensures !running ==> k !in d.loops && 0 < used
    ensures intervalMs < 0 || (c.disposed && c.session != Live) ==> running && d == c
    ensures intervalMs >= 0 && !c.locked && !c.disposed ==>
      forall j :: 0 <= j < (if running then used else used - 1) ==>
        faults[j].Some? && faults[j].value.kind != OperationCanceled
    ensures intervalMs >= 0 && !c.locked && !c.disposed && !running ==>
      faults[used - 1].None? || faults[used - 1].value.kind == OperationCanceled
    ensures intervalMs >= 0 && !c.locked && !c.disposed && !running && faults[used - 1].None? ==>
      d.session == Live && d.retry == NoRetry
  {
    d := c;
    used := 0;
    running := true;
    while running && used < |faults|
      invariant used <= |faults|
      invariant running ==> k in d.loops && var rest := RetryRun(d, k, intervalMs, faults[used..]);
        RetryRun(c, k, intervalMs, faults) == (rest.0, rest.1 + used, rest.2)
      invariant !running ==> RetryRun(c, k, intervalMs, faults) == (d, used, false)
      invariant Valid(d)
      invariant d.nextId == c.nextId && d.loops <= c.loops
      invariant running ==> k in d.loops && d.retry == Active(k)
      invariant !running ==> k !in d.loops && 0 < used
      invariant intervalMs < 0 || (c.disposed && c.session != Live) ==> running && d == c
      invariant !c.locked && !c.disposed ==> !d.locked && d.waiters == 0 && !d.disposed
      invariant !c.locked && !c.disposed && running ==> d.session != Live
      invariant intervalMs >= 0 && !c.locked && !c.disposed ==>
        forall j :: 0 <= j < (if running then used else used - 1) ==>
          faults[j].Some? && faults[j].value.kind != OperationCanceled
      invariant intervalMs >= 0 && !c.locked && !c.disposed && !running ==>
        faults[used - 1].None? || faults[used - 1].value.kind == OperationCanceled
      invariant intervalMs >= 0 && !c.locked && !c.disposed && !running && faults[used - 1].None? ==>
        d.session == Live && d.retry == NoRetry
      decreases |faults| - used, running
    {
      var step := RetryLoopStep(d, k, intervalMs, false, faults[used]);
      assert faults[used..][0] == faults[used] && faults[used..][1..] == faults[used + 1..];
      LoopKeepsValid(d, k, intervalMs, false, faults[used]);
      d := step.conn;
      running := step.running;
      used := used + 1;
    }
  }

  /** A reconnect interval of `-1` or below means the retry loop never
      reaches a connect, however long it runs. */
  lemma {:induction false} NegativeIntervalNeverConnects(c: Conn, k: nat, intervalMs: int, f: Option<Exn>)
    requires Valid(c) && c.retry == Active(k) && k in c.loops && intervalMs < 0
    ensures RetryLoopStep(c, k, intervalMs, false, f) == LoopStep(c, true)
  {
  }

  /** A retry loop running on a disposed adapter (started by a connect
      that failed while `Dispose` ran) throws at the disposed lock on every
      iteration and never ends on its own. */
  lemma {:induction false} DisposedRetrySpins(c: Conn, k: nat, intervalMs: int, f: Option<Exn>)
    requires c.disposed && c.session != Live && c.retry == Active(k) && k in c.loops && intervalMs >= 0
    ensures RetryLoopStep(c, k, intervalMs, false, f) == LoopStep(c, true)
  {
  }
}

=== FILE: polling_worker.dfy ===
/** One iteration of `StatePollingWorker.ExecuteAsync` as a pure step: the
    store and the results of the iteration's awaited calls go in; the new
    store, the broadcasts sent, and how the loop goes on come out.

    The worker is the only writer of the store in the process, so its update
    is the uncontended one (`StateStore.UpdateAlone` proves the CAS loop
    agrees with it). The clock, the read, the send and the cancellation
    token are parameters. */
module PollingWorker {
  import opened Values
  import opened StateEnums
  import opened SystemStates
  import opened Dto
  import opened StateMapper
  import opened StateStore
  import opened DeviceSource
  import StubAdapters
  import KepwareRead

  /** `StatePolling:IntervalMs` when the setting is absent. */
  const DefaultIntervalMs: int := 500

  /** The ceiling of the failure backoff. */
  const BackoffCeilingMs: int := 2000

  /** `Math.Min(_intervalMs * 2, 2000)` in 32-bit arithmetic. */
  function Backoff(intervalMs: int): (ms: int)
    requires IsInt32(intervalMs)
    ensures ms <= BackoffCeilingMs
    ensures -0x4000_0000 <= intervalMs < 0x4000_0000 ==> ms <= 2 * intervalMs
    ensures 0 <= intervalMs < 0x4000_0000 ==> 0 <= ms && (ms == 2 * intervalMs || ms == BackoffCeilingMs)
  {
    var doubled := Wrap32(intervalMs * 2);
    if doubled < BackoffCeilingMs then doubled else BackoffCeilingMs
  }

  /** The backoff of the default interval is one second. */
  lemma DefaultBackoff()
    ensures Backoff(DefaultIntervalMs) == 1000
  {
  }

  /** An interval so large that doubling it overflows gives a negative
      backoff, which `Task.Delay` rejects. */
  lemma OverflowingBackoff()
    ensures Backoff(0x4000_0000) < -1
  {
  }

  /** A push to a subscriber group. */
  datatype Broadcast = Broadcast(group: string, event: string, payload: SystemStateDto)

  /** The update the worker hands to the store: merge the read into the
      previous bag, take `deviceName` and `deviceStatus` from the merged bag
      (a missing key throws `KeyNotFoundException`), and carry every other
      field forward. */
  function Transform(incoming: Bag, now: Timestamp): Updater {
    (prev: SystemState) =>
      var merged := MergeExtensions(prev.extensions, incoming);
      if "deviceName" !in merged then Err(MissingKey("deviceName"))
      else if "deviceStatus" !in merged then Err(MissingKey("deviceStatus"))
      else Ok(prev.(timestamp := now,
                    deviceName := Some(ConvertToString(merged["deviceName"])),
                    deviceStatus := Some(ConvertToString(merged["deviceStatus"])),
                    extensions := merged))
  }

  /** The store update of one iteration. */
  function Publish(st: Store, ext: Bag, now: Timestamp): (r: Result<Store, Exn>)
    ensures r.Ok? ==> r.value.version == st.version + 1
  {
    UpdateUncontended(st, Transform(ext, now))
  }

  /** What `Transform` does to the stored snapshot: it succeeds exactly when
      the merged bag holds both device keys, and then the new snapshot holds
      the merge, the string forms of the two device values and the new time
      stamp, with mode, phase and emergency stop carried over. A failure is
      the `KeyNotFoundException` of the first missing key. */
  lemma {:induction false} PublishEffect(st: Store, ext: Bag, now: Timestamp)
    ensures var r := Publish(st, ext, now);
      var merged := MergeExtensions(st.current.extensions, ext);
      && (r.Ok? <==> ("deviceName" in merged && "deviceStatus" in merged))
      && (r.Ok? ==>
            && r.value.current.extensions == merged
            && r.value.current.deviceName == Some(ConvertToString(merged["deviceName"]))
            && r.value.current.deviceStatus == Some(ConvertToString(merged["deviceStatus"]))
            && r.value.current.timestamp == now
            && r.value.current.systemMode == st.current.systemMode
            && r.value.current.jobPhase == st.current.jobPhase
            && r.value.current.emergencyStop == st.current.emergencyStop)
      && (r.Err? ==> r.error == MissingKey(if "deviceName" !in merged then "deviceName" else "deviceStatus"))
  {
  }

  /** How the loop continues after an iteration: sleep `delayMs` and go on,
      leave the loop quietly, or let an exception escape the loop. */
  datatype Tick =
    | Continue(store: Store, sent: seq<Broadcast>, delayMs: int)
    | Stop(store: Store, sent: seq<Broadcast>)
    | Escape(store: Store, sent: seq<Broadcast>, error: Exn)

  datatype TickInputs = TickInputs(
    cancelledBefore: bool,      // the token is cancelled when the loop condition is evaluated
    read: ReadOutcome,          // `ReadStateAsync(ct)`
    now: Timestamp,             // `DateTimeOffset.UtcNow` inside the update
    sendFault: Option<Exn>,     // `SendAsync` throws
    delayCancelled: bool,       // the token fires during the normal delay
    backoffCancelled: bool)     // the token fires during the backoff delay

  const Canceled: Exn := Exn(OperationCanceled, "A task was canceled.")
  const DelayOutOfRange: Exn := Exn(ArgumentOutOfRange, "The value needs to be either -1 (signifying an infinite timeout), 0 or a positive integer.")

  /** The two `catch` arms. A cancellation leaves the loop; any other
      exception is followed by the backoff delay, whose own cancellation or
      argument error escapes the loop because it is raised inside `catch`. */
  function Recover(st: Store, sent: seq<Broadcast>, e: Exn, intervalMs: int, backoffCancelled: bool): (t: Tick)
    requires IsInt32(intervalMs)
    ensures t.store == st && t.sent == sent
    ensures e.kind == OperationCanceled ==> t.Stop?
    ensures e.kind != OperationCanceled && ValidDelay(Backoff(intervalMs)) && !backoffCancelled ==>
      t == Continue(st, sent, Backoff(intervalMs))
    ensures e.kind != OperationCanceled && ValidDelay(Backoff(intervalMs)) && backoffCancelled ==>
      t.Escape? && t.error.kind == OperationCanceled
  {
    if e.kind == OperationCanceled then Stop(st, sent)
    else if !ValidDelay(Backoff(intervalMs)) then
      Escape(st, sent, DelayOutOfRange)
    else if backoffCancelled then Escape(st, sent, Canceled)
    else Continue(st, sent, Backoff(intervalMs))
  }

  /** One pass through the loop. */
  function TickStep(st: Store, intervalMs: int, inp: TickInputs): (t: Tick)
    requires IsInt32(intervalMs)
    ensures inp.cancelledBefore ==> t == Stop(st, [])
    ensures |t.sent| <= 1
    ensures t.store == st || (inp.read.ReadOk? && Publish(st, inp.read.ext, inp.now) == Ok(t.store))
    ensures |t.sent| == 1 ==>
      t.store.version != st.version && t.sent == [Broadcast("default", "SystemStateUpdated", From(t.store.current))]
  {
    if inp.cancelledBefore then Stop(st, [])
    else
      match inp.read
      case ReadFailed(e) => Recover(st, [], e, intervalMs, inp.backoffCancelled)
      case ReadOk(ext) =>
        match Publish(st, ext, inp.now)
        case Err(e) => Recover(st, [], e, intervalMs, inp.backoffCancelled)
        case Ok(next) => AfterPublish(next, intervalMs, inp)
  }

  /** The rest of the `try` block once the store holds `next`: broadcast its
      projection, then sleep the normal interval. */
  function AfterPublish(next: Store, intervalMs: int, inp: TickInputs): (t: Tick)
    requires IsInt32(intervalMs)
    ensures t.store == next
    ensures t.sent == [Broadcast("default", "SystemStateUpdated", From(next.current))]
    ensures inp.sendFault.None? && ValidDelay(intervalMs) && !inp.delayCancelled ==> t.Continue? && t.delayMs == intervalMs
  {
    var sent := [Broadcast("default", "SystemStateUpdated", From(GetSnapshot(next)))];
    if inp.sendFault.Some? then Recover(next, sent, inp.sendFault.value, intervalMs, inp.backoffCancelled)
    else if !ValidDelay(intervalMs) then Recover(next, sent, DelayOutOfRange, intervalMs, inp.backoffCancelled)
    else if inp.delayCancelled then Stop(next, sent)
    else Continue(next, sent, intervalMs)
  }

  /** An iteration with nothing going wrong: when the merged bag has both
      device keys the store holds the merge, the two device fields are the
      string forms of the merged values, the other fields are carried
      forward, one projection of the new snapshot goes to group `default`,
      and the loop sleeps the normal interval. */
  lemma {:induction false} SuccessfulTick(st: Store, intervalMs: int, ext: Bag, now: Timestamp)
    requires IsInt32(intervalMs) && intervalMs >= 0
    requires var merged := MergeExtensions(st.current.extensions, ext);
      "deviceName" in merged && "deviceStatus" in merged
    ensures var t := TickStep(st, intervalMs, TickInputs(false, ReadOk(ext), now, Option.None, false, false));
      var merged := MergeExtensions(st.current.extensions, ext);
      && t.Continue? && t.delayMs == intervalMs
      && t.store.current.extensions == merged
      && t.store.current.deviceName == Some(ConvertToString(merged["deviceName"]))
      && t.store.current.deviceStatus == Some(ConvertToString(merged["deviceStatus"]))
      && t.store.current.timestamp == now
      && t.store.current.systemMode == st.current.systemMode
      && t.store.current.jobPhase == st.current.jobPhase
      && t.store.current.emergencyStop == st.current.emergencyStop
      && t.sent == [Broadcast("default", "SystemStateUpdated", From(t.store.current))]
  {
  }

  /** When the merged bag lacks either device key the update throws before
      the swap: the store is unchanged, nothing is sent, and the loop backs
      off and continues. */
  lemma {:induction false} MissingDeviceKeyTick(st: Store, intervalMs: int, ext: Bag, now: Timestamp)
    requires IsInt32(intervalMs) && 0 <= intervalMs < 0x4000_0000
    requires var merged := MergeExtensions(st.current.extensions, ext);
      "deviceName" !in merged || "deviceStatus" !in merged
    ensures TickStep(st, intervalMs, TickInputs(false, ReadOk(ext), now, Option.None, false, false))
         == Continue(st, [], Backoff(intervalMs))
  {
  }

  /** A failed read is not fatal: the next iteration runs after the backoff,
      unless the failure was a cancellation, which ends the loop quietly. */
  lemma {:induction false} FailedReadContinues(st: Store, intervalMs: int, e: Exn, now: Timestamp)
    requires IsInt32(intervalMs) && 0 <= intervalMs < 0x4000_0000
    ensures var t := TickStep(st, intervalMs, TickInputs(false, ReadFailed(e), now, Option.None, false, false));
      && (e.kind != OperationCanceled ==> t == Continue(st, [], Backoff(intervalMs)))
      && (e.kind == OperationCanceled ==> t == Stop(st, []))
  {
  }

  /** A cancellation during the backoff delay escapes the loop. */
  lemma {:induction false} CancelDuringBackoffEscapes(st: Store, intervalMs: int, e: Exn, now: Timestamp)
    requires IsInt32(intervalMs) && 0 <= intervalMs < 0x4000_0000
    requires e.kind != OperationCanceled
    ensures TickStep(st, intervalMs, TickInputs(false, ReadFailed(e), now, Option.None, false, true)).Escape?
  {
  }

  /** `n` iterations with the wired OPC stub, no cancellation and fresh
      time stamps; returns the final store and every broadcast sent. */
  function RunWithOpcStub(st: Store, intervalMs: int, nows: seq<Timestamp>): (r: (Store, seq<Broadcast>))
    requires IsInt32(intervalMs)
    decreases |nows|
  {
    if nows == [] then (st, [])
    else
      var t := TickStep(st, intervalMs, TickInputs(false, StubAdapters.OpcStubRead(), nows[0], Option.None, false, false));
      if t.Continue? then
        var rest := RunWithOpcStub(t.store, intervalMs, nows[1..]);
        (rest.0, t.sent + rest.1)
      else (t.store, t.sent)
  }

  /** With the OPC stub the process wires in, the bag never gains a
      `deviceName`, so every iteration throws inside the update: starting
      from the initial store, the store never changes and no snapshot is
      ever broadcast. */
  lemma {:induction false} OpcStubNeverPublishes(st: Store, intervalMs: int, nows: seq<Timestamp>)
    requires IsInt32(intervalMs) && 0 <= intervalMs < 0x4000_0000
    requires "deviceName" !in st.current.extensions
    ensures RunWithOpcStub(st, intervalMs, nows) == (st, [])
    decreases |nows|
  {
    if nows != [] {
      var ext := StubAdapters.OpcStubRead().ext;
      assert "deviceName" !in MergeExtensions(st.current.extensions, ext);
      MissingDeviceKeyTick(st, intervalMs, ext, nows[0]);
      var t := TickStep(st, intervalMs, TickInputs(false, StubAdapters.OpcStubRead(), nows[0], Option.None, false, false));
      assert t == Continue(st, [], Backoff(intervalMs));
      OpcStubNeverPublishes(st, intervalMs, nows[1..]);
      assert t.sent + [] == [];
    }
  }

  /** In particular from the store the process starts with. */
  lemma {:induction false} WiredStubFailsFromStart(now: Timestamp, nows: seq<Timestamp>)
    ensures RunWithOpcStub(InitialStore(now), DefaultIntervalMs, nows) == (InitialStore(now), [])
  {
    OpcStubNeverPublishes(InitialStore(now), DefaultIntervalMs, nows);
  }

  /** A bag produced by the Kepware adapter always carries both device keys,
      so an iteration fed by it publishes. */
  lemma {:induction false} KepwareReadPublishes(st: Store, cfg: KepwareRead.KepwareConfig,
                                                results: Option<seq<KepwareRead.DataValue>>, now: Timestamp)
    requires KepwareRead.MapReadResults(cfg, results).Ok?
    ensures var ext := KepwareRead.MapReadResults(cfg, results).value;
      var t := TickStep(st, DefaultIntervalMs, TickInputs(false, ReadOk(ext), now, Option.None, false, false));
      t.Continue? && |t.sent| == 1 && t.delayMs == DefaultIntervalMs
  {
    var ext := KepwareRead.MapReadResults(cfg, results).value;
    assert "deviceName" in ext && "deviceStatus" in ext;
    SuccessfulTick(st, DefaultIntervalMs, ext, now);
  }
}

=== FILE: startup_recovery.dfy ===
/** `StartupRecoveryService.StartAsync`: at start-up, replay every stored
    current state to its device through the device proxy. The table listing,
    the device lookup and the write are the database's and the proxy's; what
    each of them does on a given state is a parameter (a fault per state). */
module StartupRecovery {
  import opened Values
  import opened ControlEntities
  import opened DeviceSource

  /** States whose JSON is empty or `{}` are not replayed. */
  predicate Skipped(json: string) {
    json == "" || json == EmptyStateJson
  }

  /** What goes wrong for one state: nothing, the device lookup throws, or
      the write throws (after it was issued). */
  datatype StepFault = NoFault | LookupThrows(error: Exn) | WriteThrows(error: Exn)

  function FaultAt(faults: seq<StepFault>, i: nat): StepFault {
    if i < |faults| then faults[i] else NoFault
  }

  /** The writes issued, in order, and the `DevicePk` of every state whose
      failure was logged. */
  datatype Report = Report(writes: seq<WriteCall>, failed: seq<int>)

  const NoReport: Report := Report([], [])

  function Concat(a: Report, b: Report): Report {
    Report(a.writes + b.writes, a.failed + b.failed)
  }

  /** The loop body for one state. `devices` is the device table keyed by
      `DevicePk`, which `FindAsync` searches. */
  function StepOf(s: ControlStateCurrent, devices: map<int, Device>, f: StepFault): (r: Report)
    ensures |r.writes| <= 1 && |r.failed| <= 1
    ensures |r.writes| == 1 <==> !Skipped(s.stateJson) && !f.LookupThrows? && s.devicePk in devices
    ensures |r.writes| == 1 ==> r.writes[0] == WriteCall(devices[s.devicePk].deviceId, s.stateJson)
    ensures |r.failed| == 1 <==>
      !Skipped(s.stateJson) && (f.LookupThrows? || (f.WriteThrows? && s.devicePk in devices))
    ensures |r.failed| == 1 ==> r.failed[0] == s.devicePk
  {
    if Skipped(s.stateJson) then NoReport
    else match f
      case LookupThrows(_) => Report([], [s.devicePk])
      case _ =>
        if s.devicePk !in devices then NoReport
        else
          var w := [WriteCall(devices[s.devicePk].deviceId, s.stateJson)];
          if f.WriteThrows? then Report(w, [s.devicePk]) else Report(w, [])
  }

  /** The first `n` states replayed, in list order. */
  function ReplayUpTo(states: seq<ControlStateCurrent>, devices: map<int, Device>, faults: seq<StepFault>, n: nat): Report
    requires n <= |states|
  {
    if n == 0 then NoReport
    else Concat(ReplayUpTo(states, devices, faults, n - 1), StepOf(states[n - 1], devices, FaultAt(faults, n - 1)))
  }

  function Replay(states: seq<ControlStateCurrent>, devices: map<int, Device>, faults: seq<StepFault>): Report {
    ReplayUpTo(states, devices, faults, |states|)
  }

  /** `StartAsync`: a failed listing escapes; an empty list ends the
      service's start without a write; otherwise every state is replayed. */
  function StartAsync(listed: Result<seq<ControlStateCurrent>, Exn>, devices: map<int, Device>, faults: seq<StepFault>): (r: Result<Report, Exn>)
    ensures listed.Err? <==> r.Err?
    ensures listed.Ok? && listed.value == [] ==> r == Ok(NoReport)
    ensures listed.Ok? ==> r == Ok(Replay(listed.value, devices, faults))
  {
    match listed
    case Err(e) => Err(e)
    case Ok(states) => if |states| == 0 then Ok(NoReport) else Ok(Replay(states, devices, faults))
  }

  /** The `foreach` loop, with the `try`/`catch` around each state. */
  method RecoverAll(states: seq<ControlStateCurrent>, devices: map<int, Device>, faults: seq<StepFault>) returns (report: Report)
    ensures report == Replay(states, devices, faults)
    ensures |report.writes| <= |states| && |report.failed| <= |states|
  {
    report := NoReport;
    var i := 0;
    while i < |states|
      invariant 0 <= i <= |states|
      invariant report == ReplayUpTo(states, devices, faults, i)
      invariant |report.writes| <= i && |report.failed| <= i
      decreases |states| - i
    {
      var s := states[i];
      var f := FaultAt(faults, i);
      if !Skipped(s.stateJson) {
        if f.LookupThrows? {
          report := report.(failed := report.failed + [s.devicePk]);
        } else if s.devicePk in devices {
          report := report.(writes := report.writes + [WriteCall(devices[s.devicePk].deviceId, s.stateJson)]);
          if f.WriteThrows? {
            report := report.(failed := report.failed + [s.devicePk]);
          }
        }
      }
      i := i + 1;
    }
  }

  /** A failure while replaying the first states does not affect the rest:
      replaying a list is replaying its two halves one after the other, each
      with its own faults. */
  lemma {:induction false} ReplaySplits(a: seq<ControlStateCurrent>, b: seq<ControlStateCurrent>, devices: map<int, Device>,
                                        fa: seq<StepFault>, fb: seq<StepFault>, n: nat)
    requires |fa| == |a| && n <= |b|
    ensures ReplayUpTo(a + b, devices, fa + fb, |a| + n) == Concat(Replay(a, devices, fa), ReplayUpTo(b, devices, fb, n))
    decreases n
  {
    if n == 0 {
      PrefixReplay(a, b, devices, fa, fb, |a|);
    } else {
      ReplaySplits(a, b, devices, fa, fb, n - 1);
      assert (a + b)[|a| + n - 1] == b[n - 1];
      assert FaultAt(fa + fb, |a| + n - 1) == FaultAt(fb, n - 1);
    }
  }

  /** The replay of a prefix only looks at the prefix and its faults. */
  lemma {:induction false} PrefixReplay(a: seq<ControlStateCurrent>, b: seq<ControlStateCurrent>, devices: map<int, Device>,
                                        fa: seq<StepFault>, fb: seq<StepFault>, n: nat)
    requires |fa| == |a| && n <= |a|
    ensures ReplayUpTo(a + b, devices, fa + fb, n) == ReplayUpTo(a, devices, fa, n)
    decreases n
  {
    if n > 0 {
      PrefixReplay(a, b, devices, fa, fb, n - 1);
      assert (a + b)[n - 1] == a[n - 1];
      assert FaultAt(fa + fb, n - 1) == FaultAt(fa, n - 1);
    }
  }

  /** Each write carries a state that is not skipped, whose device exists,
      addressed to that device's id. */
  predicate WriteOfSomeState(states: seq<ControlStateCurrent>, devices: map<int, Device>, w: WriteCall) {
    exists i :: 0 <= i < |states| && !Skipped(states[i].stateJson) && states[i].devicePk in devices
      && w == WriteCall(devices[states[i].devicePk].deviceId, states[i].stateJson)
  }

  lemma {:induction false} WritesComeFromStates(states: seq<ControlStateCurrent>, devices: map<int, Device>, faults: seq<StepFault>, n: nat)
    requires n <= |states|
    ensures forall k :: 0 <= k < |ReplayUpTo(states, devices, faults, n).writes| ==>
      WriteOfSomeState(states, devices, ReplayUpTo(states, devices, faults, n).writes[k])
    decreases n
  {
    if n > 0 {
      WritesComeFromStates(states, devices, faults, n - 1);
      var prev := ReplayUpTo(states, devices, faults, n - 1);
      var step := StepOf(states[n - 1], devices, FaultAt(faults, n - 1));
      var all := ReplayUpTo(states, devices, faults, n);
      forall k | 0 <= k < |all.writes|
        ensures WriteOfSomeState(states, devices, all.writes[k])
      {
        if k < |prev.writes| {
          assert all.writes[k] == prev.writes[k];
        } else {
          assert all.writes[k] == step.writes[0];
          assert !Skipped(states[n - 1].stateJson) && states[n - 1].devicePk in devices;
        }
      }
    }
  }

  /** Records still holding their default `{}` are never replayed: a list of
      them produces no write and no failure. */
  lemma {:induction false} DefaultRecordsNotReplayed(states: seq<ControlStateCurrent>, devices: map<int, Device>, faults: seq<StepFault>)
    requires forall i :: 0 <= i < |states| ==> states[i].stateJson == EmptyStateJson
    ensures Replay(states, devices, faults) == NoReport
  {
    AllSkippedNoReport(states, devices, faults, |states|);
  }

  lemma {:induction false} AllSkippedNoReport(states: seq<ControlStateCurrent>, devices: map<int, Device>, faults: seq<StepFault>, n: nat)
    requires n <= |states|
    requires forall i :: 0 <= i < |states| ==> Skipped(states[i].stateJson)
    ensures ReplayUpTo(states, devices, faults, n) == NoReport
    decreases n
  {
    if n > 0 {
      AllSkippedNoReport(states, devices, faults, n - 1);
    }
  }

  /** A freshly created record (`NewControlState`) is exactly one recovery skips. */
  lemma NewRecordIsSkipped(devicePk: int, version: int, now: int)
    ensures Skipped(NewControlState(devicePk, version, now).stateJson)
  {
  }
}

=== FILE: state_enums.dfy ===
/** The two enumerations of the snapshot. A C# enum is a named 32-bit
    integer: members take the values 0, 1, 2, ... in declaration order,
    and a variable of the enum type may hold any other `int` as well.
    Each enum is therefore modelled as a datatype of its declared members
    together with the member's underlying value. */
module StateEnums {
  import opened Values

  datatype SystemMode = Idle | Auto | Manual | Error

  datatype JobPhase = None | Detect | Pick | Place | CallAGV | Dispatch | Done

  /** The underlying value of a declared mode, and its inverse. */
  function ModeValue(m: SystemMode): (v: int)
    ensures 0 <= v < 4
    ensures ModeOf(v) == Some(m)
  {
    match m
    case Idle => 0
    case Auto => 1
    case Manual => 2
    case Error => 3
  }

  function ModeOf(v: int): (r: Option<SystemMode>)
    ensures r.Some? <==> 0 <= v < 4
  {
    if v == 0 then Some(Idle)
    else if v == 1 then Some(Auto)
    else if v == 2 then Some(Manual)
    else if v == 3 then Some(Error)
    else Option.None
  }

  /** The underlying value of a declared phase, and its inverse. */
  function PhaseValue(p: JobPhase): (v: int)
    ensures 0 <= v < 7
    ensures PhaseOf(v) == Some(p)
  {
    match p
    case None => 0
    case Detect => 1
    case Pick => 2
    case Place => 3
    case CallAGV => 4
    case Dispatch => 5
    case Done => 6
  }

  function PhaseOf(v: int): (r: Option<JobPhase>)
    ensures r.Some? <==> 0 <= v < 7
  {
    if v == 0 then Some(JobPhase.None)
    else if v == 1 then Some(Detect)
    else if v == 2 then Some(Pick)
    else if v == 3 then Some(Place)
    else if v == 4 then Some(CallAGV)
    else if v == 5 then Some(Dispatch)
    else if v == 6 then Some(Done)
    else Option.None
  }

  /** `SystemMode` has exactly the four members Idle, Auto, Manual and Error,
      numbered 0 to 3, and the default (zero) value is `Idle`. */
  lemma {:induction false} SystemModeMembers()
    ensures forall v :: 0 <= v < 4 <==> ModeOf(v).Some?
    ensures forall m: SystemMode :: ModeOf(ModeValue(m)) == Some(m)
    ensures ModeOf(0) == Some(Idle)
    ensures |set m: SystemMode | true :: ModeValue(m)| == 4
  {
    var vals := set m: SystemMode | true :: ModeValue(m);
    assert vals == {0, 1, 2, 3} by {
      assert ModeValue(Idle) == 0 && ModeValue(Auto) == 1;
      assert ModeValue(Manual) == 2 && ModeValue(Error) == 3;
    }
  }

  /** `JobPhase` has exactly seven members numbered 0 to 6 in declaration
      order, and the default (zero) value is `None`. */
  lemma {:induction false} JobPhaseMembers()
    ensures forall v :: 0 <= v < 7 <==> PhaseOf(v).Some?
    ensures forall p: JobPhase :: PhaseOf(PhaseValue(p)) == Some(p)
    ensures PhaseOf(0) == Some(JobPhase.None)
    ensures |set p: JobPhase | true :: PhaseValue(p)| == 7
  {
    var vals := set p: JobPhase | true :: PhaseValue(p);
    assert vals == {0, 1, 2, 3, 4, 5, 6} by {
      assert PhaseValue(JobPhase.None) == 0 && PhaseValue(Detect) == 1;
      assert PhaseValue(Pick) == 2 && PhaseValue(Place) == 3;
      assert PhaseValue(CallAGV) == 4 && PhaseValue(Dispatch) == 5;
      assert PhaseValue(Done) == 6;
    }
  }
}

=== FILE: state_mapper.dfy ===
/** `StateMapper.MergeExtensions`: a last-writer-wins merge of two
    extension bags. Maps are values here, so neither input can be mutated
    and every result is a fresh map. */
module StateMapper {
  import opened Values

  type Bag = map<string, Value>

  /** Every incoming pair wins; every current key the incoming bag does not
      mention keeps its value; nothing else appears. */
  function MergeExtensions(current: Bag, incoming: Bag): (r: Bag)
    ensures r.Keys == current.Keys + incoming.Keys
    ensures forall k :: k in incoming ==> r[k] == incoming[k]
    ensures forall k :: k in current && k !in incoming ==> r[k] == current[k]
  {
    current + incoming
  }

  /** The merge as the source performs it: copy `current`, then assign the
      incoming pairs one at a time, in the dictionary's enumeration order
      (any order, since the keys are distinct). */
  method MergeByAssignment(current: Bag, incoming: Bag) returns (merged: Bag)
    ensures merged == MergeExtensions(current, incoming)
  {
    merged := map k | k in current :: current[k];
    var todo := incoming.Keys;
    while todo != {}
      invariant todo <= incoming.Keys
      invariant merged.Keys == current.Keys + (incoming.Keys - todo)
      invariant forall k :: k in incoming.Keys - todo ==> merged[k] == incoming[k]
      invariant forall k :: k in current && k !in incoming.Keys - todo ==> merged[k] == current[k]
      decreases todo
    {
      var k :| k in todo;
      merged := merged[k := incoming[k]];
      todo := todo - {k};
    }
  }

  /** Merging an empty bag leaves `current` as it is. */
  lemma {:induction false} MergeEmpty(current: Bag)
    ensures MergeExtensions(current, map[]) == current
  {
  }

  /** Merging the same bag twice equals merging it once. */
  lemma {:induction false} MergeIdempotent(current: Bag, incoming: Bag)
    ensures MergeExtensions(MergeExtensions(current, incoming), incoming) == MergeExtensions(current, incoming)
  {
  }

  /** Two merges in a row equal one merge of the combined incoming bags, the
      later one winning: this is what makes successive ticks of the polling
      worker compose. */
  lemma {:induction false} MergeSequential(current: Bag, first: Bag, second: Bag)
    ensures MergeExtensions(MergeExtensions(current, first), second)
         == MergeExtensions(current, MergeExtensions(first, second))
  {
  }
}

=== FILE: state_store.dfy ===
/** `InMemoryStateStore`: one shared reference to the current snapshot,
    read without locking and replaced by an optimistic compare-and-swap
    loop. Every successful swap installs a freshly built object, so the
    reference is modelled as a value carrying a version stamp: two reads
    see the same reference exactly when they see the same stamp.

    Competing writers are an explicit schedule: `rivals[i]` is the write,
    if any, that another thread completes between this caller's read and
    its swap in round `i`. Once the schedule is exhausted no one else
    writes, which is what lets the loop finish. */
module StateStore {
  import opened Values
  import opened SystemStates

  datatype Store = Store(version: nat, current: SystemState)

  type Updater = SystemState -> Result<SystemState, Exn>

  type Schedule = seq<Option<SystemState>>

  /** The store a new process starts with: a default snapshot. */
  function InitialStore(now: Timestamp): (st: Store)
    ensures st.current == DefaultState(now)
  {
    Store(0, DefaultState(now))
  }

  /** `GetSnapshot`: the current reference; reading changes nothing. */
  function GetSnapshot(st: Store): (r: SystemState)
    ensures r == st.current
  {
    st.current
  }

  /** A completed write: a new reference holding `value`. */
  function Install(st: Store, value: SystemState): (r: Store)
    ensures r.current == value && r.version != st.version
  {
    Store(st.version + 1, value)
  }

  /** `Interlocked.CompareExchange(ref current, value, comparand)`: returns
      the reference found (its stamp) and swaps only if it was `comparand`. */
  function CompareExchange(st: Store, comparand: nat, value: SystemState): (r: (Store, nat))
    ensures r.1 == st.version
    ensures r.1 == comparand ==> r.0.current == value && r.0.version != st.version
    ensures r.1 != comparand ==> r.0 == st
  {
    if st.version == comparand then (Install(st, value), st.version) else (st, st.version)
  }

  /** A read sees the last completed write: the initial default, the value
      a successful swap installed, and the old value after a failed swap. */
  lemma {:induction false} SnapshotSeesLastWrite(st: Store, comparand: nat, value: SystemState, now: Timestamp)
    ensures GetSnapshot(InitialStore(now)) == DefaultState(now)
    ensures GetSnapshot(CompareExchange(st, st.version, value).0) == value
    ensures comparand != st.version ==> GetSnapshot(CompareExchange(st, comparand, value).0) == GetSnapshot(st)
  {
  }

  /** The store after the competing writes of a schedule prefix. */
  function Replay(st: Store, rivals: Schedule): Store
    decreases |rivals|
  {
    if rivals == [] then st
    else
      var before := Replay(st, rivals[..|rivals| - 1]);
      match rivals[|rivals| - 1]
      case Some(v) => Install(before, v)
      case None => before
  }

  /** The competing write, if any, of round `i`. */
  function Interfere(st: Store, rivals: Schedule, i: nat): (r: Store)
    ensures i >= |rivals| || rivals[i].None? ==> r == st
    ensures i < |rivals| && rivals[i].Some? ==> r.version != st.version
  {
    if i < |rivals| && rivals[i].Some? then Install(st, rivals[i].value) else st
  }

  predicate AllContended(rivals: Schedule, n: nat)
    requires n <= |rivals|
  {
    forall j :: 0 <= j < n ==> rivals[j].Some?
  }

  predicate Quiet(rivals: Schedule) {
    forall j :: 0 <= j < |rivals| ==> rivals[j].None?
  }

  datatype UpdateOutcome =
    | Swapped(store: Store, rounds: nat, seen: SystemState)
    | Threw(store: Store, rounds: nat, error: Exn)

  /** `Update(updater)` against a schedule of competing writers.
      It returns only after its own swap succeeded, and then the store holds
      `updater(seen)` for the snapshot `seen` it read in that last round;
      every earlier round lost its race to a competing write, which the
      retry observed afresh. If `updater` throws, the exception escapes
      before any swap: the store is what the competitors left. */
  method Update(st: Store, updater: Updater, rivals: Schedule) returns (out: UpdateOutcome)
    ensures 1 <= out.rounds <= |rivals| + 1
    ensures AllContended(rivals, out.rounds - 1)
    ensures out.Swapped? ==>
      && (out.rounds - 1 < |rivals| ==> rivals[out.rounds - 1].None?)
      && out.seen == Replay(st, rivals[..out.rounds - 1]).current
      && updater(out.seen).Ok?
      && out.store.current == updater(out.seen).value
      && out.store.version == Replay(st, rivals[..out.rounds - 1]).version + 1
    ensures out.Threw? ==>
      && out.store == Replay(st, rivals[..out.rounds - 1])
      && updater(out.store.current) == Err(out.error)
  {
    var cur := st;
    var i := 0;
    while true
      invariant 0 <= i <= |rivals|
      invariant cur == Replay(st, rivals[..i])
      invariant AllContended(rivals, i)
      decreases |rivals| - i
    {
      var seen := cur.current;
      var stamp := cur.version;
      var next := updater(seen);
      if next.Err? {
        return Threw(cur, i + 1, next.error);
      }
      var raced := Interfere(cur, rivals, i);
      var swap := CompareExchange(raced, stamp, next.value);
      if swap.1 == stamp {
        return Swapped(swap.0, i + 1, seen);
      }
      assert rivals[..i + 1][..i] == rivals[..i];
      cur := swap.0;
      i := i + 1;
    }
  }

  /** The update with no competing writer: one read, one swap. */
  function UpdateUncontended(st: Store, updater: Updater): (r: Result<Store, Exn>)
    ensures r.Ok? <==> updater(st.current).Ok?
    ensures r.Ok? ==> r.value.current == updater(st.current).value && r.value.version == st.version + 1
    ensures r.Err? ==> r.error == updater(st.current).error
  {
    match updater(st.current)
    case Ok(v) => Ok(Install(st, v))
    case Err(e) => Err(e)
  }

  /** With no competing writer the loop runs exactly once and agrees with
      `UpdateUncontended`. */
  method UpdateAlone(st: Store, updater: Updater, rivals: Schedule) returns (out: UpdateOutcome)
    requires Quiet(rivals)
    ensures out.rounds == 1
    ensures out.Swapped? <==> UpdateUncontended(st, updater).Ok?
    ensures out.Swapped? ==> out.store == UpdateUncontended(st, updater).value
    ensures out.Threw? ==> out.store == st && Err(out.error) == UpdateUncontended(st, updater)
  {
    out := Update(st, updater, rivals);
    if |rivals| > 0 {
      assert rivals[0].None?;
    }
    assert rivals[..0] == [];
  }
}

=== FILE: stub_adapters.dfy ===
/** The two stub readers. The OPC stub is the one the process wires in
    (Program.cs:37); the ROS stub keeps a call counter. */
module StubAdapters {
  import opened Values
  import opened DeviceSource

  /** `OpcUaStubAdapter.ReadStateAsync`: a fixed three-entry bag. It is
      stateless and never fails, and it never supplies `deviceName` or
      `deviceStatus`. */
  function OpcStubRead(): (r: ReadOutcome)
    ensures r.ReadOk?
    ensures r.ext.Keys == {"opc.connected", "opc.conveyor.running", "opc.conveyor.speed"}
    ensures r.ext["opc.connected"] == VBool(true) && r.ext["opc.conveyor.running"] == VBool(true)
    ensures "deviceName" !in r.ext && "deviceStatus" !in r.ext
  {
    ReadOk(map[
      "opc.connected" := VBool(true),
      "opc.conveyor.running" := VBool(true),
      "opc.conveyor.speed" := VDouble("0.8")])
  }

  /** The ROS stub's only state: the public 32-bit counter `_tick`. */
  datatype RosStub = RosStub(tick: int)

  predicate ValidRos(s: RosStub) {
    IsInt32(s.tick)
  }

  /** `RosStubAdapter.ReadStateAsync`: increments the counter by one (with
      32-bit wrap-around, as `_tick++` does in unchecked code), then returns
      four `ros.`-prefixed entries, the counter's new value among them. It
      never fails. */
  function RosStubRead(s: RosStub): (r: (RosStub, ReadOutcome))
    requires ValidRos(s)
    ensures ValidRos(r.0)
    ensures s.tick < Int32Max ==> r.0.tick == s.tick + 1
    ensures s.tick == Int32Max ==> r.0.tick == Int32Min
    ensures r.1.ReadOk?
    ensures |r.1.ext.Keys| == 4
    ensures forall k :: k in r.1.ext ==> StartsWith(k, "ros.")
    ensures "ros.tick" in r.1.ext && r.1.ext["ros.tick"] == VInt(r.0.tick)
    ensures "ros.connected" in r.1.ext && r.1.ext["ros.connected"] == VBool(true)
    ensures "ros.robot.status" in r.1.ext && r.1.ext["ros.robot.status"] == VStr("OK")
  {
    var next := RosStub(Wrap32(s.tick + 1));
    var ext := map[
      "ros.connected" := VBool(true),
      "ros.tick" := VInt(next.tick),
      "ros.robot.status" := VStr("OK"),
      "ros.robos.pose" := VObject("{ x = 1, y = 2, z = 0.5 }")];
    assert ext.Keys == {"ros.connected", "ros.tick", "ros.robot.status", "ros.robos.pose"};
    (next, ReadOutcome.ReadOk(ext))
  }

  /** The stub after `n` reads. */
  function RosAfter(s: RosStub, n: nat): (r: RosStub)
    requires ValidRos(s)
    ensures ValidRos(r)
    decreases n
  {
    if n == 0 then s else RosAfter(RosStubRead(s).0, n - 1)
  }

  /** From any counter value, `n` reads advance `ros.tick` by `n` for as
      long as the counter does not pass `int.MaxValue`. */
  lemma {:induction false} RosCountsReads(s: RosStub, n: nat)
    requires ValidRos(s) && s.tick + n <= Int32Max
    ensures RosAfter(s, n).tick == s.tick + n
    decreases n
  {
    if n > 0 {
      RosCountsReads(RosStubRead(s).0, n - 1);
    }
  }
}

=== FILE: system_state.dfy ===
/** The aggregated snapshot record. The polling worker writes two fields,
    `deviceName` and `deviceStatus`, that the record as declared in
    Application/State/SystemState.cs does not have; the model adds them so
    that the worker's update can be stated. C# leaves a string property it
    never initialises at null, modelled here as `None`. */
module SystemStates {
  import opened Values
  import opened StateEnums

  /** An opaque point in time (`DateTimeOffset`); clocks are parameters. */
  type Timestamp = int

  datatype SystemState = SystemState(
    timestamp: Timestamp,
    systemMode: SystemMode,
    jobPhase: JobPhase,
    emergencyStop: bool,
    extensions: map<string, Value>,
    deviceName: Option<string>,
    deviceStatus: Option<string>)

  /** `new SystemState()` at time `now`: every initialiser's default. */
  function DefaultState(now: Timestamp): SystemState {
    SystemState(now, Idle, JobPhase.None, false, map[], Option.None, Option.None)
  }

  /** The defaults are the zero values of the two enums, `false` and an empty bag. */
  lemma DefaultStateIsZeroed(now: Timestamp)
    ensures ModeValue(DefaultState(now).systemMode) == 0
    ensures PhaseValue(DefaultState(now).jobPhase) == 0
    ensures !DefaultState(now).emergencyStop
    ensures DefaultState(now).extensions == map[]
    ensures DefaultState(now).timestamp == now
  {
  }
}

=== FILE: system_state_dto.dfy ===
/** The outward projection of a snapshot, as served over HTTP and pushed
    to subscribers. The DTO has no `deviceName`/`deviceStatus`, so the
    projection forgets exactly those two snapshot fields. */
module Dto {
  import opened Values
  import opened StateEnums
  import opened SystemStates

  datatype SystemStateDto = SystemStateDto(
    timeStamp: Timestamp,
    systemMode: SystemMode,
    jobPhase: JobPhase,
    emergencyStop: bool,
    extensions: map<string, Value>)

  /** `default(DateTimeOffset)`, the DTO's uninitialised time stamp. */
  const MinTimestamp: Timestamp := 0

  /** `new SystemStateDto()`. */
  function DefaultDto(): SystemStateDto {
    SystemStateDto(MinTimestamp, Idle, JobPhase.None, false, map[])
  }

  /** Rebuilds a snapshot from a projection and the two device fields the
      projection leaves out. */
  function Restore(d: SystemStateDto, deviceName: Option<string>, deviceStatus: Option<string>): SystemState {
    SystemState(d.timeStamp, d.systemMode, d.jobPhase, d.emergencyStop, d.extensions, deviceName, deviceStatus)
  }

  /** `SystemStateDto.From`: the projection loses nothing but the two device
      fields, so restoring them gives the snapshot back. The extension bag
      is copied key for key. */
  function From(s: SystemState): (d: SystemStateDto)
    ensures Restore(d, s.deviceName, s.deviceStatus) == s
    ensures d.extensions.Keys == s.extensions.Keys
    ensures forall k :: k in s.extensions ==> d.extensions[k] == s.extensions[k]
  {
    SystemStateDto(s.timestamp, s.systemMode, s.jobPhase, s.emergencyStop,
                   map k | k in s.extensions :: s.extensions[k])
  }

  /** Two snapshots have the same projection exactly when they differ at
      most in `deviceName` and `deviceStatus`. */
  lemma {:induction false} FromIdentifies(a: SystemState, b: SystemState)
    ensures From(a) == From(b) <==> a.(deviceName := b.deviceName, deviceStatus := b.deviceStatus) == b
  {
    if From(a) == From(b) {
      calc {
        a.(deviceName := b.deviceName, deviceStatus := b.deviceStatus);
        Restore(From(a), b.deviceName, b.deviceStatus);
        Restore(From(b), b.deviceName, b.deviceStatus);
        b;
      }
    }
    if a.(deviceName := b.deviceName, deviceStatus := b.deviceStatus) == b {
      assert From(a).extensions == From(b).extensions;
    }
  }

  /** Projecting a freshly constructed snapshot gives the DTO defaults
      (`Idle`, `None`, `false`, empty bag) apart from the time stamp. */
  lemma DefaultProjection(now: Timestamp)
    ensures From(DefaultState(now)) == DefaultDto().(timeStamp := now)
  {
  }
}

=== FILE: values.dfy ===
/** Shared vocabulary of the gateway model: optional values and results,
    the boxed values carried in extension bags, the exceptions the modelled
    code raises or catches, and the fixed-width integer arithmetic of the
    .NET runtime (C# `int` and `long` wrap around silently in unchecked code). */
module Values {

  datatype Option<+T> = None | Some(value: T)

  datatype Result<+T, +E> = Ok(value: T) | Err(error: E)

  /** A boxed extension value (`object` in the source). Floating-point
      numbers and anonymous objects are opaque: only their text is kept. */
  datatype Value =
    | VBool(b: bool)
    | VInt(i: int)
    | VDouble(text: string)
    | VStr(s: string)
    | VObject(text: string)

  /** The exception types the modelled code throws or catches. */
  datatype ExnKind =
    | KeyNotFound          // Dictionary indexer on a missing key
    | InvalidCast          // unboxing an object to the wrong type
    | InvalidOperation     // raised by the write path on a bad status
    | Transport            // any I/O failure reported by the device proxy SDK
    | OperationCanceled    // a cancellation token fired
    | ObjectDisposed       // use of a disposed semaphore or token source
    | ArgumentOutOfRange   // `Task.Delay` given a negative count other than -1

  datatype Exn = Exn(kind: ExnKind, message: string)

  /** The exception `Dictionary<string, object>` raises for a missing key. */
  function MissingKey(key: string): (e: Exn)
    ensures e.kind == KeyNotFound
  {
    Exn(KeyNotFound, "The given key '" + key + "' was not present in the dictionary.")
  }

  const Int32Min: int := -0x8000_0000
  const Int32Max: int := 0x7FFF_FFFF
  const Int64Min: int := -0x8000_0000_0000_0000
  const Int64Max: int := 0x7FFF_FFFF_FFFF_FFFF

  predicate IsInt32(x: int) { Int32Min <= x <= Int32Max }
  predicate IsInt64(x: int) { Int64Min <= x <= Int64Max }

  /** Two's-complement truncation to 32 bits, as unchecked C# `int` arithmetic does. */
  function Wrap32(x: int): (r: int)
    ensures IsInt32(r)
    ensures (r - x) % 0x1_0000_0000 == 0
    ensures IsInt32(x) ==> r == x
  {
    (x - Int32Min) % 0x1_0000_0000 + Int32Min
  }

  /** Two's-complement truncation to 64 bits, as unchecked C# `long` arithmetic does. */
  function Wrap64(x: int): (r: int)
    ensures IsInt64(r)
    ensures (r - x) % 0x1_0000_0000_0000_0000 == 0
    ensures IsInt64(x) ==> r == x
  {
    (x - Int64Min) % 0x1_0000_0000_0000_0000 + Int64Min
  }

  /** `Task.Delay(ms)` accepts `-1` (wait until cancelled) and any
      non-negative count, and throws `ArgumentOutOfRangeException` for the rest. */
  predicate ValidDelay(ms: int) {
    ms >= -1
  }

  predicate StartsWith(s: string, prefix: string) {
    |prefix| <= |s| && s[..|prefix|] == prefix
  }

  /** The index of the first `c` in `s`, if any. */
  function IndexOf(s: string, c: char): (r: Option<nat>)
    ensures r.Some? ==> r.value < |s| && s[r.value] == c && c !in s[..r.value]
    ensures r.None? ==> c !in s
  {
    if |s| == 0 then None
    else if s[0] == c then Some(0)
    else match IndexOf(s[1..], c)
      case None => None
      case Some(i) => assert s[..i + 1] == [s[0]] + s[1..][..i]; Some(i + 1)
  }

  /** Decimal text of an integer, as `Int32.ToString()` prints it. */
  function DecimalText(n: int): (s: string)
    ensures |s| > 0
    decreases if n < 0 then 1 - n else n
  {
    if n < 0 then "-" + DecimalText(-n)
    else if n < 10 then [DigitChar(n)]
    else DecimalText(n / 10) + [DigitChar(n % 10)]
  }

  function DigitChar(d: int): char
    requires 0 <= d < 10
  {
    "0123456789"[d]
  }

  /** `Convert.ToString(object)` on a boxed value: booleans print as
      `True`/`False`, strings are returned as they are. */
  function ConvertToString(v: Value): (s: string)
    ensures v.VStr? ==> s == v.s
    ensures v.VBool? ==> (s == "True" <==> v.b)
  {
    match v
    case VBool(b) => if b then "True" else "False"
    case VInt(i) => DecimalText(i)
    case VDouble(t) => t
    case VStr(x) => x
    case VObject(t) => t
  }
}

=== FILE: viewer_client.dfy ===
/** The browser viewer's side of the WebRTC handshake: the hub event
    handlers, the local ICE callback, the offer negotiation, the control
    command guard, and the rule that picks the candidate pair in use.
    Each handler runs to completion before the next one starts; the
    results of the awaited browser and hub calls are parameters. */
module ViewerClient {
  import opened Values

  /** JavaScript truthiness of a nullable string: null and `""` are falsy. */
  predicate Truthy(s: Option<string>) {
    s.Some? && s.value != ""
  }

  /** A hub invocation the page issued, whether or not it then succeeded. */
  datatype Invoke =
    | Relay(kind: string, payload: string, target: string)
    | SendControlCommand(command: string, value: string)

  /** The peer connection: whether a remote description is set, and the
      remote ICE candidates applied to it, in order. */
  datatype Pc = Pc(remoteSet: bool, applied: seq<string>)

  datatype Viewer = Viewer(
    myId: Option<string>,          // `conn.connectionId`
    connected: bool,               // the hub connection is in state Connected
    broadcasterId: Option<string>,
    negotiating: bool,
    pc: Option<Pc>,
    pendingRemoteIce: seq<string>,
    pendingLocalIce: seq<string>,
    sent: seq<Invoke>)

  /** The page right after it loads. */
  function Initial(myId: Option<string>, connected: bool): Viewer {
    Viewer(myId, connected, Option.None, false, Option.None, [], [], [])
  }

  /** The relays of local candidates `cs` to `target`, in order. */
  function IceRelays(cs: seq<string>, target: string): (r: seq<Invoke>)
    ensures |r| == |cs|
    ensures forall i :: 0 <= i < |cs| ==> r[i] == Relay("ice", cs[i], target)
  {
    if cs == [] then [] else [Relay("ice", cs[0], target)] + IceRelays(cs[1..], target)
  }

  /** How far a negotiation gets: the offer is never produced (creating it or
      setting it as local description rejects), or the `k`-th relay rejects
      (0 is the offer, `k >= 1` the `k`-th flushed candidate), or all
      awaited calls succeed. */
  datatype Negotiation = OfferFails | RelayFailsAt(k: nat) | Completes

  /** `negotiateNow`: nothing without a truthy broadcaster id or while a
      negotiation is in progress. Otherwise mark it in progress, replace the
      peer connection, relay the offer, then take the whole local buffer,
      empty it, and relay its candidates in order. Returns whether the
      returned promise rejects. */
  function NegotiateNow(v: Viewer, offer: string, outcome: Negotiation): (r: (Viewer, bool))
    ensures !Truthy(v.broadcasterId) || v.negotiating ==> r == (v, false)
    ensures Truthy(v.broadcasterId) && !v.negotiating && outcome == Completes ==>
      && !r.1
      && r.0.negotiating && r.0.pc == Some(Pc(false, []))
      && r.0.pendingLocalIce == []
      && r.0.sent == v.sent + [Relay("offer", offer, v.broadcasterId.value)] + IceRelays(v.pendingLocalIce, v.broadcasterId.value)
    ensures r.0.broadcasterId == v.broadcasterId && r.0.pendingRemoteIce == v.pendingRemoteIce
    ensures r.0.myId == v.myId && r.0.connected == v.connected
    ensures r.0.pc != v.pc ==> r.0.pc == Some(Pc(false, []))
    ensures r.1 ==> Truthy(v.broadcasterId) && !v.negotiating && outcome != Completes
  {
    if !Truthy(v.broadcasterId) || v.negotiating then (v, false)
    else
      var b := v.broadcasterId.value;
      var started := v.(negotiating := true, pc := Some(Pc(false, [])));
      var relays := [Relay("offer", offer, b)] + IceRelays(v.pendingLocalIce, b);
      match outcome
      case OfferFails => (started, true)
      case RelayFailsAt(k) =>
        if k == 0 then (started.(sent := v.sent + relays[..1]), true)
        else if k <= |v.pendingLocalIce| then (started.(pendingLocalIce := [], sent := v.sent + relays[..k + 1]), true)
        else (started.(pendingLocalIce := [], sent := v.sent + relays), false)
      case Completes => (started.(pendingLocalIce := [], sent := v.sent + relays), false)
  }

  /** The `BroadcasterOnline` handler: ignore the client's own id (when it
      has one) and, once a broadcaster id is set, any other id; otherwise
      adopt the id and negotiate, clearing `negotiating` if that rejects. */
  function OnBroadcasterOnline(v: Viewer, id: string, offer: string, outcome: Negotiation): (r: Viewer)
    ensures Truthy(v.myId) && id == v.myId.value ==> r == v
    ensures Truthy(v.broadcasterId) && v.broadcasterId.value != id ==> r == v
    ensures !(Truthy(v.myId) && id == v.myId.value) && !(Truthy(v.broadcasterId) && v.broadcasterId.value != id) ==>
      r.broadcasterId == Some(id)
  {
    if Truthy(v.myId) && id == v.myId.value then v
    else if Truthy(v.broadcasterId) && v.broadcasterId.value != id then v
    else
      var n := NegotiateNow(v.(broadcasterId := Some(id)), offer, outcome);
      if n.1 then n.0.(negotiating := false) else n.0
  }

  /** `pc.onicecandidate`: the end-of-candidates event (no candidate) is
      ignored; a candidate is buffered while no broadcaster id is known and
      relayed to the broadcaster otherwise. */
  function OnLocalIce(v: Viewer, candidate: Option<string>): (r: Viewer)
    ensures candidate.None? ==> r == v
    ensures candidate.Some? && !Truthy(v.broadcasterId) ==>
      r == v.(pendingLocalIce := v.pendingLocalIce + [candidate.value])
    ensures candidate.Some? && Truthy(v.broadcasterId) ==>
      r == v.(sent := v.sent + [Relay("ice", candidate.value, v.broadcasterId.value)])
  {
    match candidate
    case None => v
    case Some(c) =>
      if !Truthy(v.broadcasterId) then v.(pendingLocalIce := v.pendingLocalIce + [c])
      else v.(sent := v.sent + [Relay("ice", c, v.broadcasterId.value)])
  }

  /** The `Signal` handler. A payload that is not JSON throws before any
      state changes. Without a peer connection only ICE is kept (buffered).
      An answer sets the remote description, applies the buffered remote
      candidates in arrival order, empties the buffer and ends the
      negotiation. ICE is applied once a remote description is set and
      buffered before. Other kinds are dropped. */
  function OnSignal(v: Viewer, kind: string, payload: string, isJson: bool): (r: Viewer)
    ensures !isJson ==> r == v
    ensures isJson && v.pc.None? ==>
      r == (if kind == "ice" then v.(pendingRemoteIce := v.pendingRemoteIce + [payload]) else v)
    ensures isJson && v.pc.Some? && kind == "answer" ==>
      && r.pc == Some(Pc(true, v.pc.value.applied + v.pendingRemoteIce))
      && r.pendingRemoteIce == [] && !r.negotiating
    ensures isJson && v.pc.Some? && kind == "ice" && !v.pc.value.remoteSet ==>
      r == v.(pendingRemoteIce := v.pendingRemoteIce + [payload])
    ensures isJson && v.pc.Some? && kind == "ice" && v.pc.value.remoteSet ==>
      r == v.(pc := Some(v.pc.value.(applied := v.pc.value.applied + [payload])))
    ensures isJson && kind != "answer" && kind != "ice" ==> r == v
    ensures r.sent == v.sent && r.broadcasterId == v.broadcasterId && r.pendingLocalIce == v.pendingLocalIce
  {
    if !isJson then v
    else match v.pc
      case None => if kind == "ice" then v.(pendingRemoteIce := v.pendingRemoteIce + [payload]) else v
      case Some(pc) =>
        if kind == "answer" then
          v.(pc := Some(Pc(true, pc.applied + v.pendingRemoteIce)), pendingRemoteIce := [], negotiating := false)
        else if kind == "ice" then
          if !pc.remoteSet then v.(pendingRemoteIce := v.pendingRemoteIce + [payload])
          else v.(pc := Some(pc.(applied := pc.applied + [payload])))
        else v
  }

  /** What `sendControlCommand` reports on the status line. */
  datatype ControlStatus = NotConnected | NoBroadcaster | CommandSent | SendFailed

  /** `sendControlCommand`: nothing is sent without a connection or without
      a truthy broadcaster id; otherwise the command is invoked and the
      status reflects whether the invocation resolved. */
  function SendControl(v: Viewer, command: string, value: string, invokeOk: bool): (r: (Viewer, ControlStatus))
    ensures !v.connected ==> r == (v, NotConnected)
    ensures v.connected && !Truthy(v.broadcasterId) ==> r == (v, NoBroadcaster)
    ensures v.connected && Truthy(v.broadcasterId) ==>
      && r.0 == v.(sent := v.sent + [SendControlCommand(command, value)])
      && (r.1 == CommandSent <==> invokeOk)
    ensures r.1 in {NotConnected, NoBroadcaster} <==> r.0 == v
  {
    if !v.connected then (v, NotConnected)
    else if !Truthy(v.broadcasterId) then (v, NoBroadcaster)
    else (v.(sent := v.sent + [SendControlCommand(command, value)]), if invokeOk then CommandSent else SendFailed)
  }

  /** Every input the page reacts to, with the outcomes of the calls it awaits. */
  datatype Event =
    | EvBroadcasterOnline(id: string, offer: string, outcome: Negotiation)
    | EvLocalIce(candidate: Option<string>)
    | EvSignal(kind: string, payload: string, isJson: bool)
    | EvControl(command: string, value: string, invokeOk: bool)

  /** The page's reaction to one event. A local candidate can only come
      from the `onicecandidate` callback of a peer connection the page
      created, so it is ignored while there is none. */
  function Apply(v: Viewer, e: Event): Viewer {
    match e
    case EvBroadcasterOnline(id, offer, outcome) => OnBroadcasterOnline(v, id, offer, outcome)
    case EvLocalIce(c) => if v.pc.Some? then OnLocalIce(v, c) else v
    case EvSignal(kind, payload, isJson) => OnSignal(v, kind, payload, isJson)
    case EvControl(command, value, ok) => SendControl(v, command, value, ok).0
  }

  function Run(v: Viewer, es: seq<Event>): Viewer
    decreases |es|
  {
    if es == [] then v else Run(Apply(v, es[0]), es[1..])
  }

  /** The page's invariants: every relay it issued went to the broadcaster
      id it holds; buffered remote candidates only exist while the current
      peer connection has no remote description; a peer connection exists
      only once a truthy broadcaster id is known (`negotiateNow` creates it
      after its guard); and so the local candidate buffer stays empty. */
  ghost predicate Valid(v: Viewer) {
    && (forall i :: 0 <= i < |v.sent| && v.sent[i].Relay? ==> Truthy(v.broadcasterId) && v.sent[i].target == v.broadcasterId.value)
    && (v.pc.Some? && v.pc.value.remoteSet ==> v.pendingRemoteIce == [])
    && (v.pc.Some? ==> Truthy(v.broadcasterId))
    && v.pendingLocalIce == []
  }

  lemma InitialIsValid(myId: Option<string>, connected: bool)
    ensures Valid(Initial(myId, connected))
  {
  }

  /** Once a broadcaster id is truthy no handler changes it. */
  lemma {:induction false} BroadcasterIdSticks(v: Viewer, e: Event)
    requires Truthy(v.broadcasterId)
    ensures Apply(v, e).broadcasterId == v.broadcasterId
  {
  }

  /** A negotiation relays only to the broadcaster id the page holds. */
  lemma {:induction false} NegotiateKeepsValid(v: Viewer, offer: string, outcome: Negotiation)
    requires Valid(v)
    ensures Valid(NegotiateNow(v, offer, outcome).0)
  {
    if Truthy(v.broadcasterId) && !v.negotiating {
      var b := v.broadcasterId.value;
      var n := NegotiateNow(v, offer, outcome).0;
      var relays := [Relay("offer", offer, b)] + IceRelays(v.pendingLocalIce, b);
      assert forall k :: 0 <= k < |relays| ==> relays[k].target == b;
      forall i | 0 <= i < |n.sent| && n.sent[i].Relay?
        ensures n.sent[i].target == b
      {
        if i >= |v.sent| {
          assert n.sent[i] == relays[i - |v.sent|];
        }
      }
    }
  }

  lemma {:induction false} BroadcasterOnlineKeepsValid(v: Viewer, id: string, offer: string, outcome: Negotiation)
    requires Valid(v)
    ensures Valid(OnBroadcasterOnline(v, id, offer, outcome))
  {
    if !(Truthy(v.myId) && id == v.myId.value) && !(Truthy(v.broadcasterId) && v.broadcasterId.value != id) {
      var w := v.(broadcasterId := Some(id));
      assert Valid(w);
      NegotiateKeepsValid(w, offer, outcome);
    }
  }

  lemma {:induction false} ApplyKeepsValid(v: Viewer, e: Event)
    requires Valid(v)
    ensures Valid(Apply(v, e))
  {
    match e
    case EvBroadcasterOnline(id, offer, outcome) => BroadcasterOnlineKeepsValid(v, id, offer, outcome);
    case EvLocalIce(c) =>
    case EvSignal(kind, payload, isJson) =>
    case EvControl(command, value, ok) =>
  }

  lemma {:induction false} RunKeepsValid(v: Viewer, es: seq<Event>)
    requires Valid(v)
    ensures Valid(Run(v, es))
    ensures Truthy(v.broadcasterId) ==> Run(v, es).broadcasterId == v.broadcasterId
    decreases |es|
  {
    if es != [] {
      ApplyKeepsValid(v, es[0]);
      if Truthy(v.broadcasterId) {
        BroadcasterIdSticks(v, es[0]);
      }
      RunKeepsValid(Apply(v, es[0]), es[1..]);
    }
  }

  /** A local candidate never waits in the buffer: in a reachable state it
      is relayed to the broadcaster at once, or there is no peer connection
      to produce it. */
  lemma {:induction false} LocalIceRelayedAtOnce(v: Viewer, es: seq<Event>, c: string)
    requires Valid(v)
    ensures var w := Run(v, es);
      && w.pendingLocalIce == []
      && (w.pc.Some? ==>
            && Truthy(w.broadcasterId)
            && Apply(w, EvLocalIce(Some(c))) == w.(sent := w.sent + [Relay("ice", c, w.broadcasterId.value)]))
      && (w.pc.None? ==> Apply(w, EvLocalIce(Some(c))) == w)
  {
    RunKeepsValid(v, es);
  }

  /** If the flush fails at its `k`-th candidate, the candidates after it are
      neither relayed nor kept: the buffer was emptied before the flush.
      This holds of `negotiateNow` as written; in the page's reachable
      states the buffer is already empty when it runs. */
  lemma {:induction false} FailedFlushDropsRest(v: Viewer, offer: string, k: nat)
    requires Truthy(v.broadcasterId) && !v.negotiating
    requires 1 <= k < |v.pendingLocalIce|
    ensures var r := NegotiateNow(v, offer, RelayFailsAt(k));
      && r.1
      && r.0.pendingLocalIce == []
      && r.0.sent == v.sent + [Relay("offer", offer, v.broadcasterId.value)] + IceRelays(v.pendingLocalIce[..k], v.broadcasterId.value)
  {
    var b := v.broadcasterId.value;
    var relays := [Relay("offer", offer, b)] + IceRelays(v.pendingLocalIce, b);
    assert relays[..k + 1] == [Relay("offer", offer, b)] + IceRelays(v.pendingLocalIce[..k], b);
  }

  /** Remote candidates that arrive before the answer are applied, in
      arrival order, when the answer arrives. */
  lemma {:induction false} EarlyRemoteIceApplied(v: Viewer, a: string, b: string, answer: string)
    requires v.pc == Some(Pc(false, [])) && v.pendingRemoteIce == []
    ensures var r := OnSignal(OnSignal(OnSignal(v, "ice", a, true), "ice", b, true), "answer", answer, true);
      r.pc == Some(Pc(true, [a, b])) && r.pendingRemoteIce == [] && !r.negotiating
  {
    var w := OnSignal(OnSignal(v, "ice", a, true), "ice", b, true);
    assert w.pendingRemoteIce == [a, b];
    assert w.pc == Some(Pc(false, []));
    assert w.pc.value.applied + w.pendingRemoteIce == [a, b];
  }

  // ---- Candidate-pair selection ----

  /** One entry of a stats report, with the fields the selection reads
      (the truthiness of `selected` and `nominated`). */
  datatype Stat = Stat(
    id: string,
    kind: string,
    selectedCandidatePairId: Option<string>,
    selected: bool,
    nominated: bool,
    state: string)

  /** A stats report is a map keyed by id, enumerated in insertion order. */
  predicate UniqueIds(stats: seq<Stat>) {
    forall i, j :: 0 <= i < j < |stats| ==> stats[i].id != stats[j].id
  }

  /** `stats.get(id)`. */
  function Lookup(stats: seq<Stat>, id: string): (r: Option<Stat>)
    ensures r.Some? ==> r.value in stats && r.value.id == id
    ensures r.None? ==> forall i :: 0 <= i < |stats| ==> stats[i].id != id
  {
    if stats == [] then Option.None
    else if stats[0].id == id then Some(stats[0])
    else Lookup(stats[1..], id)
  }

  predicate NamesPair(s: Stat) {
    s.kind == "transport" && Truthy(s.selectedCandidatePairId)
  }

  predicate SucceededPair(s: Stat) {
    s.kind == "candidate-pair" && (s.selected || s.nominated) && s.state == "succeeded"
  }

  /** The pair id named by the last transport entry that names one. */
  function LastNamedPairId(stats: seq<Stat>): (r: Option<string>)
    ensures r.Some? ==> exists i :: 0 <= i < |stats| && NamesPair(stats[i]) && stats[i].selectedCandidatePairId == r
    ensures r.None? ==> forall i :: 0 <= i < |stats| ==> !NamesPair(stats[i])
  {
    if stats == [] then Option.None
    else if NamesPair(stats[|stats| - 1]) then stats[|stats| - 1].selectedCandidatePairId
    else LastNamedPairId(stats[..|stats| - 1])
  }

  /** The last succeeded candidate pair that is selected or nominated. */
  function LastSucceeded(stats: seq<Stat>): (r: Option<Stat>)
    ensures r.Some? ==> r.value in stats && SucceededPair(r.value)
    ensures r.None? ==> forall i :: 0 <= i < |stats| ==> !SucceededPair(stats[i])
  {
    if stats == [] then Option.None
    else if SucceededPair(stats[|stats| - 1]) then Some(stats[|stats| - 1])
    else LastSucceeded(stats[..|stats| - 1])
  }

  /** The pair in use: the entry the transport names, if the report holds
      it; otherwise the last succeeded selected-or-nominated pair. */
  function SelectPair(stats: seq<Stat>): Option<Stat> {
    var named := LastNamedPairId(stats);
    if named.Some? && Lookup(stats, named.value).Some? then Lookup(stats, named.value)
    else LastSucceeded(stats)
  }

  /** The two passes of `logCandidatePairTypes`, as loops. */
  method FindSelectedPair(stats: seq<Stat>) returns (pair: Option<Stat>)
    ensures pair == SelectPair(stats)
    ensures pair.Some? ==> pair.value in stats
  {
    var pairId: Option<string> := Option.None;
    var i := 0;
    while i < |stats|
      invariant 0 <= i <= |stats|
      invariant pairId == LastNamedPairId(stats[..i])
      decreases |stats| - i
    {
      assert stats[..i + 1][..i] == stats[..i];
      if NamesPair(stats[i]) {
        pairId := stats[i].selectedCandidatePairId;
      }
      i := i + 1;
    }
    assert stats[..|stats|] == stats;
    pair := Option.None;
    if pairId.Some? && pairId.value != "" {
      pair := Lookup(stats, pairId.value);
    }
    if pair.None? {
      var j := 0;
      while j < |stats|
        invariant 0 <= j <= |stats|
        invariant pair == LastSucceeded(stats[..j])
        decreases |stats| - j
      {
        assert stats[..j + 1][..j] == stats[..j];
        if SucceededPair(stats[j]) {
          pair := Some(stats[j]);
        }
        j := j + 1;
      }
      assert stats[..|stats|] == stats;
    }
  }

  /** When the transport names a pair the report holds, that pair is
      chosen whatever the candidate pairs' own flags say. */
  lemma {:induction false} NamedPairWins(stats: seq<Stat>, t: nat, p: nat)
    requires UniqueIds(stats)
    requires t < |stats| && NamesPair(stats[t])
    requires forall i :: t < i < |stats| ==> !NamesPair(stats[i])
    requires p < |stats| && Some(stats[p].id) == stats[t].selectedCandidatePairId
    ensures SelectPair(stats) == Some(stats[p])
  {
    LastNamedIs(stats, t);
    LookupFinds(stats, p);
  }

  lemma {:induction false} LastNamedIs(stats: seq<Stat>, t: nat)
    requires t < |stats| && NamesPair(stats[t])
    requires forall i :: t < i < |stats| ==> !NamesPair(stats[i])
    ensures LastNamedPairId(stats) == stats[t].selectedCandidatePairId
    decreases |stats|
  {
    if t < |stats| - 1 {
      LastNamedIs(stats[..|stats| - 1], t);
    }
  }

  lemma {:induction false} LookupFinds(stats: seq<Stat>, p: nat)
    requires UniqueIds(stats) && p < |stats|
    ensures Lookup(stats, stats[p].id) == Some(stats[p])
    decreases p
  {
    if p > 0 {
      assert stats[0].id != stats[p].id;
      LookupFinds(stats[1..], p - 1);
    }
  }
}

=== FILE: webrtc_hub.dfy ===
/** The signalling hub between the simulator (one broadcaster per room) and
    browser viewers. Its two process-wide tables, the group memberships and
    the messages it sends are one immutable value, and each hub method maps
    that value to the next one. */
module WebRtcHub {
  import opened Values

  /** A message pushed to clients, by event name. */
  datatype Message =
    | BroadcasterOnline(id: string)
    | BroadcasterNotOnline(id: string)
    | ViewerJoined(viewerId: string)
    | ViewerLeft(viewerId: string)
    | Signal(kind: string, payload: string, from: string)

  /** Where a message was addressed. A group send reaches the members the
      group has at the moment of sending, recorded with it. */
  datatype Address = ToConnection(id: string) | ToGroup(name: string, members: set<string>)

  datatype Send = Send(address: Address, msg: Message)

  /** The connections a send reaches. A send to a single connection id is
      addressed whether or not that connection exists. */
  function Recipients(s: Send): set<string> {
    match s.address
    case ToConnection(id) => {id}
    case ToGroup(_, members) => members
  }

  /** `broadcasters`: room to the connection that registered last;
      `viewers`: connection to the room it joined last; `memberships`: pairs
      (group name, connection). */
  datatype Hub = Hub(
    broadcasters: map<string, string>,
    viewers: map<string, string>,
    memberships: set<(string, string)>,
    outbox: seq<Send>)

  const Empty: Hub := Hub(map[], map[], {}, [])

  function ViewersGroup(room: string): string {
    "room:" + room + ":viewers"
  }

  function BroadcasterGroup(room: string): string {
    "room:" + room + ":broadcaster"
  }

  function Members(h: Hub, group: string): (m: set<string>)
    ensures forall c :: c in m <==> (group, c) in h.memberships
  {
    set p | p in h.memberships && p.0 == group :: p.1
  }

  /** `JoinViewers`: record the caller's room (replacing an earlier one) and
      add the caller to the room's viewer group, without leaving any group
      it joined before. If the room has a broadcaster, tell the caller its
      id and tell the broadcaster the caller's id. */
  function JoinViewers(h: Hub, caller: string, room: string): (r: Hub)
    ensures r.broadcasters == h.broadcasters
    ensures r.viewers == h.viewers[caller := room]
    ensures r.memberships == h.memberships + {(ViewersGroup(room), caller)}
    ensures room in h.broadcasters ==>
      r.outbox == h.outbox + [Send(ToConnection(caller), BroadcasterOnline(h.broadcasters[room])),
                              Send(ToConnection(h.broadcasters[room]), ViewerJoined(caller))]
    ensures room !in h.broadcasters ==> r.outbox == h.outbox
  {
    var joined := h.(viewers := h.viewers[caller := room],
                     memberships := h.memberships + {(ViewersGroup(room), caller)});
    if room in h.broadcasters then
      var b := h.broadcasters[room];
      joined.(outbox := h.outbox + [Send(ToConnection(caller), BroadcasterOnline(b)),
                                    Send(ToConnection(b), ViewerJoined(caller))])
    else joined
  }

  /** `RegisterBroadcaster`: the caller replaces any earlier broadcaster of
      the room (which is neither told nor removed from its group), joins the
      room's broadcaster group, and every current viewer of the room is told
      the caller's id. */
  function RegisterBroadcaster(h: Hub, caller: string, room: string): (r: Hub)
    ensures r.broadcasters == h.broadcasters[room := caller]
    ensures r.viewers == h.viewers
    ensures r.memberships == h.memberships + {(BroadcasterGroup(room), caller)}
    ensures |r.outbox| == |h.outbox| + 1 && r.outbox[..|h.outbox|] == h.outbox
    ensures var s := r.outbox[|h.outbox|];
      s.msg == BroadcasterOnline(caller)
      && (forall c :: c in Recipients(s) <==> (ViewersGroup(room), c) in h.memberships)
  {
    var m := h.memberships + {(BroadcasterGroup(room), caller)};
    var s := Send(ToGroup(ViewersGroup(room), Members(h.(memberships := m), ViewersGroup(room))), BroadcasterOnline(caller));
    Hub(h.broadcasters[room := caller], h.viewers, m, h.outbox + [s])
  }

  /** `Relay`: to the target connection when one is given; otherwise to the
      group whose name is exactly `room` (not one of the `room:` groups),
      the sender included. */
  function Relay(h: Hub, caller: string, room: string, kind: string, payload: string, target: Option<string>): (r: Hub)
    ensures r.broadcasters == h.broadcasters && r.viewers == h.viewers && r.memberships == h.memberships
    ensures |r.outbox| == |h.outbox| + 1 && r.outbox[..|h.outbox|] == h.outbox
    ensures r.outbox[|h.outbox|].msg == Signal(kind, payload, caller)
    ensures target.Some? ==> Recipients(r.outbox[|h.outbox|]) == {target.value}
    ensures target.None? ==> forall c :: c in Recipients(r.outbox[|h.outbox|]) <==> (room, c) in h.memberships
  {
    var address := match target
      case Some(t) => ToConnection(t)
      case None => ToGroup(room, Members(h, room));
    h.(outbox := h.outbox + [Send(address, Signal(kind, payload, caller))])
  }

  /** `CheckBroadcaster`: the dictionary indexer throws for a room with no
      broadcaster. Otherwise the reply goes to the caller and carries the
      caller's own id; it is `BroadcasterOnline` exactly when the registered
      connection id is longer than one character. */
  function CheckBroadcaster(h: Hub, caller: string, room: string): (r: Result<Hub, Exn>)
    ensures r.Err? <==> room !in h.broadcasters
    ensures r.Err? ==> r.error == MissingKey(room)
    ensures r.Ok? ==>
      && r.value.broadcasters == h.broadcasters && r.value.viewers == h.viewers
      && r.value.memberships == h.memberships
      && |r.value.outbox| == |h.outbox| + 1 && r.value.outbox[..|h.outbox|] == h.outbox
      && r.value.outbox[|h.outbox|].address == ToConnection(caller)
      && (r.value.outbox[|h.outbox|].msg == BroadcasterOnline(caller) <==> |h.broadcasters[room]| > 1)
      && (r.value.outbox[|h.outbox|].msg == BroadcasterNotOnline(caller) <==> |h.broadcasters[room]| <= 1)
  {
    if room !in h.broadcasters then Err(MissingKey(room))
    else
      var reply := if |h.broadcasters[room]| > 1 then BroadcasterOnline(caller) else BroadcasterNotOnline(caller);
      Ok(h.(outbox := h.outbox + [Send(ToConnection(caller), reply)]))
  }

  /** A listing of the broadcaster table in the order the dictionary
      enumerates it: every room exactly once. */
  predicate IsEnumeration(order: seq<string>, m: map<string, string>) {
    (forall i, j :: 0 <= i < j < |order| ==> order[i] != order[j])
    && (forall k :: k in m ==> k in order)
    && (forall i :: 0 <= i < |order| ==> order[i] in m)
  }

  /** The first room in `order` whose broadcaster is `caller`. */
  function FirstOwned(order: seq<string>, m: map<string, string>, caller: string): (r: Option<nat>)
    ensures r.Some? ==> r.value < |order| && order[r.value] in m && m[order[r.value]] == caller
    ensures r.Some? ==> forall i :: 0 <= i < r.value && order[i] in m ==> m[order[i]] != caller
    ensures r.None? ==> forall i :: 0 <= i < |order| && order[i] in m ==> m[order[i]] != caller
  {
    if order == [] then Option.None
    else if order[0] in m && m[order[0]] == caller then Some(0)
    else match FirstOwned(order[1..], m, caller)
      case None => Option.None
      case Some(i) => Some(i + 1)
  }

  /** The `foreach … break` scan of `OnDisconnectedAsync`, as a loop. */
  method ScanBroadcasters(order: seq<string>, m: map<string, string>, caller: string) returns (found: Option<string>)
    ensures found == (match FirstOwned(order, m, caller) case None => Option.None case Some(i) => Some(order[i]))
  {
    found := Option.None;
    var i := 0;
    while i < |order|
      invariant 0 <= i <= |order|
      invariant forall j :: 0 <= j < i && order[j] in m ==> m[order[j]] != caller
      decreases |order| - i
    {
      if order[i] in m && m[order[i]] == caller {
        found := Some(order[i]);
        FirstIsFirst(order, m, caller, i);
        return;
      }
      i := i + 1;
    }
    NoneOwned(order, m, caller);
  }

  lemma {:induction false} FirstIsFirst(order: seq<string>, m: map<string, string>, caller: string, i: nat)
    requires i < |order| && order[i] in m && m[order[i]] == caller
    requires forall j :: 0 <= j < i && order[j] in m ==> m[order[j]] != caller
    ensures FirstOwned(order, m, caller) == Some(i)
    decreases i
  {
    if i > 0 {
      FirstIsFirst(order[1..], m, caller, i - 1);
    }
  }

  lemma {:induction false} NoneOwned(order: seq<string>, m: map<string, string>, caller: string)
    requires forall j :: 0 <= j < |order| && order[j] in m ==> m[order[j]] != caller
    ensures FirstOwned(order, m, caller) == Option.None
    decreases |order|
  {
    if order != [] {
      NoneOwned(order[1..], m, caller);
    }
  }

  /** Every membership of `caller` dropped, as the framework does when a
      connection closes. */
  function LeaveAllGroups(ms: set<(string, string)>, caller: string): (r: set<(string, string)>)
    ensures forall p :: p in r <==> p in ms && p.1 != caller
  {
    set p | p in ms && p.1 != caller
  }

  /** `OnDisconnectedAsync`: drop the first room (in enumeration order) whose
      broadcaster is the caller, and only that one; drop the caller's viewer
      entry and, if its room still has a broadcaster, tell that broadcaster
      the caller left. The remaining viewers are not told a broadcaster
      left. Finally the caller leaves every group. */
  function OnDisconnected(h: Hub, caller: string, order: seq<string>): (r: Hub)
    requires IsEnumeration(order, h.broadcasters)
    ensures FirstOwned(order, h.broadcasters, caller).None? ==> r.broadcasters == h.broadcasters
    ensures FirstOwned(order, h.broadcasters, caller).Some? ==>
      r.broadcasters == h.broadcasters - {order[FirstOwned(order, h.broadcasters, caller).value]}
    ensures r.viewers == h.viewers - {caller}
    ensures forall p :: p in r.memberships <==> p in h.memberships && p.1 != caller
    ensures caller in h.viewers && h.viewers[caller] in r.broadcasters ==>
      r.outbox == h.outbox + [Send(ToConnection(r.broadcasters[h.viewers[caller]]), ViewerLeft(caller))]
    ensures !(caller in h.viewers && h.viewers[caller] in r.broadcasters) ==> r.outbox == h.outbox
  {
    var bs := match FirstOwned(order, h.broadcasters, caller)
      case None => h.broadcasters
      case Some(i) => h.broadcasters - {order[i]};
    var out := if caller in h.viewers && h.viewers[caller] in bs
      then h.outbox + [Send(ToConnection(bs[h.viewers[caller]]), ViewerLeft(caller))]
      else h.outbox;
    Hub(bs, h.viewers - {caller}, LeaveAllGroups(h.memberships, caller), out)
  }

  /** Every viewer entry is backed by membership of that room's viewer
      group, and every group the hub creates is named `room:…`. */
  ghost predicate Valid(h: Hub) {
    && (forall c :: c in h.viewers ==> (ViewersGroup(h.viewers[c]), c) in h.memberships)
    && (forall p :: p in h.memberships ==> StartsWith(p.0, "room:"))
  }

  lemma EmptyIsValid()
    ensures Valid(Empty)
  {
  }

  lemma {:induction false} RoomGroupsArePrefixed(room: string)
    ensures StartsWith(ViewersGroup(room), "room:") && StartsWith(BroadcasterGroup(room), "room:")
  {
    assert ViewersGroup(room)[..5] == "room:";
    assert BroadcasterGroup(room)[..5] == "room:";
  }

  lemma {:induction false} JoinKeepsValid(h: Hub, caller: string, room: string)
    requires Valid(h)
    ensures Valid(JoinViewers(h, caller, room))
  {
    RoomGroupsArePrefixed(room);
  }

  lemma {:induction false} RegisterKeepsValid(h: Hub, caller: string, room: string)
    requires Valid(h)
    ensures Valid(RegisterBroadcaster(h, caller, room))
  {
    RoomGroupsArePrefixed(room);
  }

  lemma {:induction false} DisconnectKeepsValid(h: Hub, caller: string, order: seq<string>)
    requires Valid(h) && IsEnumeration(order, h.broadcasters)
    ensures Valid(OnDisconnected(h, caller, order))
  {
    var r := OnDisconnected(h, caller, order);
    forall c | c in r.viewers
      ensures (ViewersGroup(r.viewers[c]), c) in r.memberships
    {
      assert c != caller && r.viewers[c] == h.viewers[c];
    }
  }

  /** Because every group the hub creates is named `room:…`, a relay without
      a target, addressed to a plain room id, reaches no one. */
  lemma {:induction false} UntargetedRelayReachesNobody(h: Hub, caller: string, room: string, kind: string, payload: string)
    requires Valid(h)
    requires !StartsWith(room, "room:")
    ensures Recipients(Relay(h, caller, room, kind, payload, Option.None).outbox[|h.outbox|]) == {}
  {
    forall p | p in h.memberships
      ensures p.0 != room
    {
      assert StartsWith(p.0, "room:");
    }
  }

  /** A viewer that joins a second room stays in the first room's group, so
      it keeps receiving the first room's broadcaster announcements. */
  lemma {:induction false} JoinTwiceKeepsBothGroups(h: Hub, caller: string, room1: string, room2: string)
    ensures var r := JoinViewers(JoinViewers(h, caller, room1), caller, room2);
      && (ViewersGroup(room1), caller) in r.memberships
      && (ViewersGroup(room2), caller) in r.memberships
      && r.viewers[caller] == room2
  {
  }

  /** A viewer that joins after the broadcaster registered learns its id,
      and the broadcaster learns the viewer's. */
  lemma {:induction false} LateViewerIsIntroduced(h: Hub, b: string, v: string, room: string)
    ensures var r := JoinViewers(RegisterBroadcaster(h, b, room), v, room);
      && r.outbox[|r.outbox| - 2] == Send(ToConnection(v), BroadcasterOnline(b))
      && r.outbox[|r.outbox| - 1] == Send(ToConnection(b), ViewerJoined(v))
  {
  }

  /** A connection registered as broadcaster of two rooms keeps one of them
      after it disconnects: the scan stops at the first match. */
  lemma StaleBroadcasterAfterDisconnect()
    ensures var h := RegisterBroadcaster(RegisterBroadcaster(Empty, "unity", "A"), "unity", "B");
      var r := OnDisconnected(h, "unity", ["A", "B"]);
      "B" in r.broadcasters && r.broadcasters["B"] == "unity"
  {
    var h := RegisterBroadcaster(RegisterBroadcaster(Empty, "unity", "A"), "unity", "B");
    assert h.broadcasters == map["A" := "unity", "B" := "unity"];
    assert FirstOwned(["A", "B"], h.broadcasters, "unity") == Some(0);
  }

  /** The rooms `caller` is broadcaster of. */
  function OwnedRooms(m: map<string, string>, caller: string): set<string> {
    set k | k in m && m[k] == caller
  }

  /** When the caller was broadcaster of at most one room, a second
      disconnect changes nothing and sends nothing. */
  lemma {:induction false} DisconnectIdempotent(h: Hub, caller: string, order: seq<string>, order2: seq<string>)
    requires IsEnumeration(order, h.broadcasters)
    requires |OwnedRooms(h.broadcasters, caller)| <= 1
    requires IsEnumeration(order2, OnDisconnected(h, caller, order).broadcasters)
    ensures var once := OnDisconnected(h, caller, order);
      OnDisconnected(once, caller, order2) == once
  {
    var once := OnDisconnected(h, caller, order);
    match FirstOwned(order, h.broadcasters, caller)
    case None =>
    case Some(i) =>
      var k := order[i];
      forall j | 0 <= j < |order2| && order2[j] in once.broadcasters
        ensures once.broadcasters[order2[j]] != caller
      {
        var x := order2[j];
        if h.broadcasters[x] == caller {
          assert x in OwnedRooms(h.broadcasters, caller) && k in OwnedRooms(h.broadcasters, caller);
          assert x != k;
          assert {x, k} <= OwnedRooms(h.broadcasters, caller);
          assert |{x, k}| == 2;
          SubsetCard({x, k}, OwnedRooms(h.broadcasters, caller));
        }
      }
    NoneOwned(order2, once.broadcasters, caller);
    assert LeaveAllGroups(once.memberships, caller) == once.memberships;
  }

  lemma SubsetCard<T>(a: set<T>, b: set<T>)
    requires a <= b
    ensures |a| <= |b|
  {
    if a != {} {
      var x :| x in a;
      SubsetCard(a - {x}, b - {x});
    }
  }
}
